=== FILE: README.md ===
# Render orchestrator core, modelled in Dafny

This project models the sequential core of the `blur` render orchestrator, a Rust tool. The tool pipes a VapourSynth frame
source (`vspipe`) into a transcoder (`ffmpeg`). The model covers four parts:

- **Command builder** (`FfmpegCommand`, from `Rendering::build_ffmpeg_command`). It maps the script path, video path,
  output path, settings, stdout flag and host facts to a `CommandWithArgs`. That value holds both argument vectors, both
  executables and the output name reported to the user. The detailed output name is computed through
  `change_file_name` exactly as the code does, including the truncation described under "## Findings".
  `BuildFfmpegCommandCorrected` is the same builder with the corrected name.
- **Path helpers and cleanup** (`Paths`, `Cleanup`). `change_file_name` is modelled on the subset of Rust's `Path`
  semantics it uses: file stem, extension, `set_file_name` and `set_extension`. `clean` and `clean_temp` are modelled
  over a filesystem given as directory listings plus a map of paths whose removal fails.
- **Progress extractor** (`Progress`). It covers the `Frame: (\d+)/(\d+)` matcher, the `\r`-delimited `read_until`
  split, and the scan state (`read_frames`, bar length, bar position). The scan is a pure fold over records, and the
  method `ScanStream` implements it as a loop over the stream.
- **Render queue** (`RenderQueue`). This covers `Render`, its equality by video path, `queue_render`, the queue pass
  of `render_videos`, and the naming rule of `Render::new`.

The other modules are `Wrappers` (Option, Result, I/O error kinds), `Text` (decimal digits and ASCII lower-casing) and
`Config` (the settings snapshot).

Floating-point settings enter the model only through what the code asks of them. For each timescale the model keeps a
flag saying whether it equals 1.0, and the text Rust's `Display` prints for `1.0 / input` and for `output`.
`used_installer()` and `current_exe()` become the `Host` parameter, and either query may fail.

The code sets the bar position from every match and enforces no order between successive positions. The model
follows it.

`custom_ffmpeg_filters` only suppresses the codec flags: `build_ffmpeg_command` never adds its text to the arguments.
The model keeps that behaviour.

## Model

| member | source | states |
|---|---|---|
| `FfmpegCommand.BuildFfmpegCommand` | src/rendering.rs:163-327 | Fails exactly when `used_installer()` fails, or when it says yes and the exe path cannot be found. Executables are `vspipe`/`ffmpeg`, or `<dir>/lib/vapoursynth/VSPipe.exe` and `<dir>/lib/ffmpeg/ffmpeg.exe` under the installer. Frame-source args are exactly `[script, -, -p, -c, y4m]`. Transcoder args start with the 12 fixed input tokens and end with the reported output name. Between them come the audio flags, then the codec flags, then the output-format flags. |
| `FfmpegCommand.BuildAudioFlag` | src/rendering.rs:209-233 | `-af` appears among the options iff a timescale differs from 1.0. When it appears it opens the options and is followed by the filter chain. |
| `FfmpegCommand.AudioFlagPlacement` | src/rendering.rs:228-233 | Prepending the audio arguments to tokens that are never `-af` yields `-af` exactly when the chain is non-empty, in the first two positions. |
| `FfmpegCommand.AudioFilterChainPresence` | src/rendering.rs:209-226 | The chain is empty iff both timescales are 1.0. A non-empty chain starts with a filter name. |
| `FfmpegCommand.AudioFilterChainOrder` | src/rendering.rs:209-226 | The input `asetrate=48000*<1/input>` part precedes the output part. Both together are joined by one comma. The output part is `asetrate=48000*<output>` with pitch adjustment and `atempo=<output>` without. |
| `FfmpegCommand.AudioFilterChainOneComma` | src/rendering.rs:216-219 | When the displayed factors contain no comma, the chain contains exactly one comma if both parts apply and none otherwise. |
| `FfmpegCommand.BuildCustomFiltersSuppressCodecs` | src/rendering.rs:236-238 | With custom filters configured, none of `-c:v`, `-c:a` or `-movflags` is passed. |
| `FfmpegCommand.BuildDefaultCodecs` | src/rendering.rs:236-287 | Without custom filters, the video encoder flags are followed by `-c:a aac -b:a 320k -movflags +faststart`, then the output flags. |
| `FfmpegCommand.VideoEncoderFlags` | src/rendering.rs:240-280 | With a GPU, the vendor is matched ignoring case: nvidia gives `h264_nvenc -preset p7 -qp q`, amd gives `h264_amf` with `-qp_i/-qp_b/-qp_p q -quality quality`, intel gives `h264_qsv -global_quality q -preset veryslow`. Any other vendor gives no flags. Without a GPU the flags are `libx264 -preset superfast -crf q` for files and `rawvideo` for stdout. |
| `FfmpegCommand.BuildUnknownVendorNoVideoCodec` | src/rendering.rs:240-268 | An unrecognised GPU vendor leaves no `-c:v` among the options. |
| `FfmpegCommand.BuildGpuVendorCaseInsensitive` | src/rendering.rs:241-259 | Vendor strings that differ only in letter case build identical commands. |
| `FfmpegCommand.BuildOutputTarget` | src/rendering.rs:290-313 | Exactly one output form is chosen. Detailed filename plus interpolation plus blending gives the path `change_file_name(output, detailed name)`, with no `-f`, even for stdout. Otherwise stdout gives `-f nut` as the last options and `-` as the name. Otherwise the name is the plain output path and there is no `-f`. |
| `FfmpegCommand.DetailedOutputPathAsWritten` | src/rendering.rs:294-305 | The rename as the code performs it. The directory is kept. Without an original extension the name is the whole detailed name. With a non-empty original extension, that extension is kept and the stem is a prefix of the detailed name. The stem is the whole detailed name iff no dot follows the detailed name's first character. |
| `FfmpegCommand.KeepExtension` | src/helpers.rs:11-19 | Intended `change_file_name`. It keeps the directory, and the new name becomes the whole stem. A non-empty original extension is kept. |
| `FfmpegCommand.RenamesAgreeOnStem` | src/helpers.rs:11-19 | `change_file_name` equals the intended rename iff the original has no extension or the new name is its own stem. |
| `FfmpegCommand.RenamesAgree` | src/helpers.rs:11-19 | `change_file_name` equals the intended rename iff the original has no extension or no dot follows the new name's first character. |
| `FfmpegCommand.DetailedRenamesAgree` | src/rendering.rs:294-305 | The code's detailed rename and the corrected one agree iff the output has no extension or no dot follows the detailed name's first character. |
| `FfmpegCommand.BuildFfmpegCommandCorrected` | src/rendering.rs:163-327 | Corrected builder. It fails exactly when the code's builder fails. Executables, frame-source arguments and every transcoder argument but the last are the same. The last argument is the output name, which is the displayed corrected rename when the detailed name applies. Without the detailed name the command is the code's command. |
| `FfmpegCommand.CorrectedBuilderAgrees` | src/rendering.rs:290-313 | The corrected builder returns the code's command iff the build fails, the detailed name does not apply, or the two renames agree. |
| `FfmpegCommand.BuildExampleOutputName` | src/rendering.rs:290-313 | With amount `0.5` and output `videos/clip_blur.mp4`, the code reports and passes `videos/clip_blur-60fps-svp~60fps-0.mp4`. The corrected builder gives `videos/clip_blur-60fps-svp~60fps-0.5.mp4`. |
| `FfmpegCommand.DetailedOutputPath` | src/rendering.rs:290-307 | Corrected rename. It keeps the directory, and the new stem is the entire detailed name `{stem}-{fps}fps-{program}~{fps}fps-{amount}`. The original non-empty extension is kept. |
| `FfmpegCommand.AsWrittenDetailedNameTruncated` | src/rendering.rs:294-305 | As written, a blending amount containing a `.` makes the renamed file's stem strictly shorter than the detailed name. |
| `FfmpegCommand.AsWrittenDetailedNameExample` | src/rendering.rs:294-305 | With amount `0.5`, `videos/clip_blur.mp4` is renamed to `clip_blur-60fps-svp~60fps-0.mp4`. |
| `FfmpegCommand.DetailedNameExample` | src/rendering.rs:294-305 | The corrected rename of the same input is `clip_blur-60fps-svp~60fps-0.5.mp4`. |
| `FfmpegCommand.ScenarioTempoOnly` | src/rendering.rs:216-225 | Input 1.0 and output 2 without pitch adjustment give the chain `atempo=2`. |
| `FfmpegCommand.ScenarioInputOnly` | src/rendering.rs:210-214 | Input 0.5 (reciprocal displayed as 2) gives the chain `asetrate=48000*2`. |
| `FfmpegCommand.ScenarioNvidia` | src/rendering.rs:240-247 | GPU on, vendor `NVIDIA`, quality 20 gives `-c:v h264_nvenc -preset p7 -qp 20`. |
| `FfmpegCommand.ScenarioStdoutRaw` | src/rendering.rs:278-310 | Streaming to stdout without a GPU or detailed name gives `-c:v rawvideo`, the output flags `-f nut` and the name `-`. |
| `FfmpegCommand.EncoderTokens` | src/rendering.rs:235-287 | Every codec token is a fixed word or the quality number. |
| `FfmpegCommand.QualityIsNotAFlag` | src/rendering.rs:235 | The quality's decimal text never equals a flag starting with `-`. |
| `FfmpegCommand.EncoderArgsLack` | src/rendering.rs:235-287 | A flag outside the codec vocabulary never appears among the codec flags. |
| `FfmpegCommand.AudioArgsLack` | src/rendering.rs:228-233 | A flag other than `-af` never appears among the audio arguments. |
| `Text.NatToString` | src/rendering.rs:235 | `to_string` of the quality is a non-empty run of digits that starts with `0` only for zero. |
| `Text.ParseNatToString` | src/helpers.rs:103-106 | Parsing the decimal text of a number returns the number. |
| `Text.LowerEqualIffSameIgnoringCase` | src/rendering.rs:241 | Lower-cased strings are equal iff the strings differ only in letter case. |
| `Text.LowerMatchesLiteral` | src/rendering.rs:241-259 | `to_lowercase(v) == "nvidia"` (or another lower-case literal) iff `v` spells that literal in any case. |
| `Paths.ChangeFileName` | src/helpers.rs:11-19 | The parent directory is kept. Without an original extension the file name is exactly `name`. With a non-empty original extension, the result has that extension and `name`'s own stem, so text after a dot in `name` is replaced. An empty original extension leaves only `name`'s stem. |
| `Paths.LastDot` | src/helpers.rs:15 | The position found holds a `.` and no later position does. `None` means the name has no dot. |
| `Paths.SplitNameRecompose` | src/helpers.rs:15-16 | A name is its stem followed by `.` and its extension when it has one, and is its stem otherwise. Extensions contain no dot. Non-empty names have non-empty stems. |
| `Paths.WholeStem` | src/helpers.rs:15-16 | A name other than `..` is its own stem iff no dot follows its first character. The stem is always a prefix of the name. |
| `Paths.DisplayInjective` | src/rendering.rs:305 | Two paths in one directory display alike iff their names are equal. |
| `Paths.Segments` | src/rendering.rs:59 | The text of a path cut at each `/` gives at least one piece, and no piece holds a `/`. |
| `Paths.Normals` | src/rendering.rs:59 | Empty and `.` pieces yield no component. No root or current-directory component appears among the rest. |
| `Paths.Components` | src/rendering.rs:59 | `Path::components` of a Unix path. The root or a leading `.` can only come first. No component is empty or `.`. |
| `Paths.PiecesComponents` | src/rendering.rs:59 | The components of a path given as pieces. The root or a leading `.` can only come first. |
| `Paths.SegmentsJoin` | src/rendering.rs:59 | Cutting `a/b` gives the pieces of `a` followed by those of `b`. |
| `Paths.SegmentsOfPiece` | src/rendering.rs:59 | Text without `/` is a single piece. |
| `Paths.NormalsAppend` | src/rendering.rs:59 | The components of concatenated pieces are the components of each, concatenated. |
| `Paths.DropEmptyOrCurrent` | src/rendering.rs:59 | `a//b` and `a/./b` have the components of `a/b`, for a non-empty `a`. |
| `Paths.ComponentsOfFile` | src/rendering.rs:59 | A file in a directory has the directory's components followed by its own name. |
| `Paths.SplitNameJoin` | src/helpers.rs:15-16 | `stem.ext` with a non-empty stem and a non-empty, dot-free extension splits back into `stem` and `ext`. |
| `RenderQueue.NewRender` | src/rendering.rs:30-54 | There is no render exactly when the input's name is not a file name: empty, `.`, `..` or holding a `/`. Otherwise the render keeps the input path, its folder, its name, the settings, the script and the output mode. The output file sits in the video's folder. When the container is a non-empty dot-free word, the output's stem is `<video stem>_blur` and its extension is the container. |
| `RenderQueue.BlurNameSplits` | src/rendering.rs:38-41 | `<stem>_blur.<container>` splits into stem `<stem>_blur` and extension `<container>` when the container is a non-empty, dot-free word. |
| `RenderQueue.SameRender` | src/rendering.rs:57-61 | Two renders are equal iff their video paths have the same components, as `PathBuf` equality compares them. Its properties are stated by the rows below. |
| `RenderQueue.SameRenderNormalisedPaths` | src/rendering.rs:57-61 | `a//b/clip.mp4` and `a/./b/clip.mp4` are each the same render as `a/b/clip.mp4`. |
| `RenderQueue.DifferentNamesDifferentRenders` | src/rendering.rs:57-61 | Two videos with different file names in one folder are different renders. |
| `RenderQueue.SameRenderIsEquivalence` | src/rendering.rs:57-61 | Render equality is reflexive, symmetric and transitive. |
| `RenderQueue.RendersOfOneInputAreEqual` | src/rendering.rs:30-61 | An input yields a render for one set of settings, script and output mode iff it yields one for any other. The two renders are then equal. |
| `RenderQueue.QueueRender` | src/rendering.rs:80-83 | Appends exactly one render at the end, keeps the earlier ones, and sets `renders_queued`. |
| `RenderQueue.QueueAll` | src/rendering.rs:80-83 | Queuing a list appends it in order. |
| `RenderQueue.RenderPass` | src/rendering.rs:90-117 | With renders queued, a pass processes the queue in order, then leaves it empty with the flag false. Otherwise nothing is processed and nothing changes. |
| `RenderQueue.QueueThenPass` | src/rendering.rs:80-117 | Renders queued on an empty queue are processed by one pass exactly and in insertion order, and the queue ends empty. |
| `Cleanup.RemoveFile` | src/helpers.rs:28-35 | Succeeds iff the file exists and its removal is not refused, and then removes only that entry. An absent file reports `NotFound`. |
| `Cleanup.RemoveDirAll` | src/helpers.rs:25 | Succeeds iff the directory exists and neither the directory nor any of its entries refuses removal, and then drops that directory's listing. An existing, unrefused directory with a refused entry fails with that entry's error. A missing directory gives `NotFound`. |
| `Cleanup.RefusedKinds` | src/helpers.rs:25 | The error kinds reported by the entries of a directory that refuse removal. |
| `Cleanup.Clean` | src/helpers.rs:21-43 | An unreadable script directory is fatal. It succeeds iff the script directory is readable, the first removal succeeds and the sidecar's removal is not refused. A failure of the first removal is fatal with that error. On success the script directory is gone iff it had at most one entry. Otherwise the script is gone and every other entry except the sidecar remains. The `<video file name>.ffindex` sidecar is gone and nothing is added. When the video's folder is not the script directory, it keeps every entry but the sidecar. Unrelated directories are unchanged. |
| `Cleanup.CleanToleratesMissingSidecar` | src/helpers.rs:30-39 | A missing sidecar is no error, so the result is that of the script removal. |
| `Cleanup.CleanFatalOnOtherSidecarError` | src/helpers.rs:36-41 | Any other failure to remove the sidecar is fatal with that error kind. |
| `Cleanup.CleanScenarioAlone` | src/helpers.rs:23-25 | A temp directory holding only `script.vpy` is removed whole. |
| `Cleanup.CleanScenarioShared` | src/helpers.rs:23-28 | With `other.tmp` beside it, only `script.vpy` is removed. |
| `Cleanup.CleanScenarioSidecar` | src/helpers.rs:23-37 | With `clip.mp4.ffindex` beside `clip.mp4`, the lone script's directory and the sidecar are both removed, and the video stays. |
| `Cleanup.CleanScenarioRefusedScript` | src/helpers.rs:23-28 | A script whose removal is refused makes `clean` fail with that error. This holds whether the script is alone in its directory or has a sibling. |
| `Cleanup.CleanTemp` | src/helpers.rs:45-49 | On success nothing was added, and the sidecar of every render in the list is gone. |
| `Cleanup.CleanTempAppend` | src/helpers.rs:45-49 | Cleaning `a + b` is cleaning `a` and then, unless that was fatal, `b`: each render once, in list order. |
| `Cleanup.CleanTempSingle` | src/helpers.rs:45-49 | Cleaning a one-render list is one `clean` of its video and script. |
| `Progress.DigitRun` | src/helpers.rs:90 | The greedy `\d+` run starting at a position: all digits, and followed by a non-digit or the end. |
| `Progress.DigitRunUnique` | src/helpers.rs:90 | A maximal digit run is determined by where it starts. |
| `Progress.MatchAt` | src/helpers.rs:90 | A match at a position needs the literal `Frame: ` there and at least three characters after it (`d/d`). |
| `Progress.FirstMatch` | src/helpers.rs:90-101 | Finds the leftmost start of a match. No earlier position matches. |
| `Progress.MatchFrame` | src/helpers.rs:100-101 | A record fails to match iff no position of it starts `Frame: d+/d+`. The match is unanchored. When it matches, the captures are those of a position where a match starts and no earlier position starts one: the leftmost occurrence. |
| `Progress.RunValueOf` | src/helpers.rs:103-106 | A digit run spelling `d` parses to the value of `d`. |
| `Progress.MatchAtMarker` | src/helpers.rs:90-106 | `Frame: <c>/<t>` at the start of a record matches there with captures `(c, t)` when no digit follows. |
| `Progress.MatchFrameMarker` | src/helpers.rs:90-106 | A record starting with `Frame: <c>/<t>` and not continuing with a digit yields `(c, t)`. |
| `Progress.NoMarkerNoMatch` | src/helpers.rs:100 | A record without the text `Frame: ` does not match. |
| `Progress.FirstCr` | src/helpers.rs:94 | Finds the first carriage return at or after a position, with none before it. |
| `Progress.ReadUntil` | src/helpers.rs:94 | The record and the remainder concatenate to the stream. The record is non-empty on a non-empty stream and has no `\r` except as its last character. It ends in `\r` unless the stream is exhausted. |
| `Progress.SplitRecords` | src/helpers.rs:92-98 | Records are non-empty, contain `\r` only as their last character, and all but the last end in `\r`. |
| `Progress.SplitRecordsConcat` | src/helpers.rs:92-98 | The records concatenate back to the stream. |
| `Progress.Step` | src/helpers.rs:93-107 | One record. A length once taken is kept. A non-matching record changes nothing. A matching record sets `read_frames` and makes the position its current frame. If no total was taken before, the length becomes the record's total. |
| `Progress.Scan` | src/helpers.rs:92-108 | The loop over reads keeps a length once taken. If `read_frames` is still false afterwards, the state is unchanged. |
| `Progress.Live` | src/helpers.rs:96-98 | The reads before the first empty read: a prefix of non-empty reads, followed by an empty one or by the end. |
| `Progress.ScanMeaning` | src/helpers.rs:88-109 | The scan equals the loop-free description. Without matches the state is unchanged. Otherwise the total comes from the first match before any empty read, or stays if already taken, and the position is the last match's current value. |
| `Progress.NoMatchLeavesState` | src/helpers.rs:89-107 | No length or position is set before a matching record, and non-matching records change nothing. |
| `Progress.TotalFromFirstMatch` | src/helpers.rs:100-106 | After a match `read_frames` holds, the length is the first match's total, and later totals never change it. The position is the latest match's current value, with no monotonicity. |
| `Progress.ScanStopsAtEmptyRead` | src/helpers.rs:93-98 | Records after the first empty read have no effect. |
| `Progress.LiveOfRecords` | src/helpers.rs:92-98 | When every read is non-empty, the scan sees all of them. |
| `Progress.ScanStream` | src/helpers.rs:88-109 | The read loop over a stream yields the fold over its records, that is, the loop-free description over its matches. |

## Left out

- Process spawning, piping and waiting in `exec` (src/helpers.rs:51-70) are operating-system I/O and concurrency. The
  `is_terminal` gating of the progress scan is not modelled.
- `exit` (src/helpers.rs:72-86) is a terminal prompt followed by process exit.
- src/main.rs is command-line parsing, console title and panic-handler setup.
- `Render::new` side effects are left out: `Config::parse`, `create_temp_path` and script generation. The script path
  and settings are parameters.
- `NewRender`: a path is a folder text and a final name. For a name of `..`, Rust's `file_stem()` is `None` and so is
  the model's result. A name that is empty or `.` does not end a Rust path: Rust would take the folder's last component
  as the file name and build a render for it. The model returns `None` for these names instead. Non-UTF-8 names cannot
  be expressed.
- `SameRender`: paths are Unix paths. Components are computed for `/` separators only, and `Display` joins with `/`.
  Windows `\` separators and prefixes are not modelled, nor is a symbolic link that makes two different component
  lists name one file.
- `RemoveDirAll`: when several entries refuse removal, Rust reports the first in directory order. Listings are sets,
  so the model reports `PermissionDenied` if any entry reports it, otherwise the other kind.
- `render_videos`' VapourSynth core, plugin initialisation and progress-bar styling, and the stub `render_node`, are
  foreign library calls. `render_video` only chains the builder, `exec` and `clean`.
- `config`, `script_handler` and `teres` are not part of this model. Their values enter as parameters.
- `Settings.quality` is an unsigned number. The settings type is not part of this model, so an unsigned quality is
  assumed, and `QualityIsNotAFlag` relies on that assumption.
- Floating-point values: only equality with 1.0 and the displayed text are modelled, with no division or rounding.
- `ToLower`: only ASCII letters are lowered, whereas `str::to_lowercase` is Unicode-aware.
- `MatchFrame`: `\d` matches ASCII digits only, whereas Rust's regex `\d` also matches other Unicode decimal digits.
  Such digits would make `parse::<u64>()` panic.
- `ScanStream`: numbers are unbounded naturals, so the `u64` overflow panic of `parse::<u64>().unwrap()` is not
  modelled. Read errors (`expect("stderr Error")`) and UTF-8 lossy decoding are left out too.
- `ChangeFileName`: names are opaque strings. A `/`, or an empty name passed to `set_file_name`, is not interpreted as
  Rust's `push` would interpret it. Paths always have a file name.
- `Clean`: `remove_dir_all` drops the directory's own listing but not nested directories or its entry in its parent.
  `read_dir` fails only for a missing directory.
- `BuildFfmpegCommand`: the `to_str().unwrap()` panics on non-UTF-8 paths and the `parent().unwrap()` of the executable
  path are not modelled. The executable's directory is given directly.

## Findings

| source | as written | input that shows it | evidently intended | confidence | as-written member | corrected member |
|---|---|---|---|---|---|---|
| src/rendering.rs:294-305 | The detailed base name goes through `change_file_name`, whose `set_extension` cuts it at its last `.` before adding the original extension. | Output `videos/clip_blur.mp4` with blending amount displayed as `0.5` is renamed to `clip_blur-60fps-svp~60fps-0.mp4`. | Keep the whole name `clip_blur-60fps-svp~60fps-0.5` and append `.mp4`. | medium (assumes the amount displays with a fractional part); not executed | `FfmpegCommand.AsWrittenDetailedNameTruncated` | `FfmpegCommand.DetailedOutputPath` |

`BuildFfmpegCommand` computes the name as the code does, through `DetailedOutputPathAsWritten`, and
`BuildExampleOutputName` shows the truncated name it reports. `BuildFfmpegCommandCorrected` uses `DetailedOutputPath`
instead. `DetailedRenamesAgree` and `CorrectedBuilderAgrees` state exactly when the two builders differ: only when a
dot follows the first character of the detailed name. A dot in the fps text or the interpolation program's name
causes the same truncation as one in the amount.

=== FILE: cleanup.dfy ===
/** Removal of a render's temporary files: `clean` and `clean_temp`
    (src/helpers.rs:21-49). The filesystem is a set of directory listings. */
module Cleanup {
  import opened Wrappers
  import opened Paths
  import opened RenderQueue

  /** An error a removal can report on a path that exists. */
  type FaultKind = k: ErrorKind | k != NotFound witness PermissionDenied

  /** Each directory path maps to the names of its entries. `faults` holds the
      paths whose removal the operating system refuses, with the error it reports. */
  datatype FileSystem = FileSystem(dirs: map<string, set<string>>, faults: map<string, FaultKind>)

  predicate Exists(fs: FileSystem, p: Path) {
    p.dir in fs.dirs && p.name in fs.dirs[p.dir]
  }

  /** `after` has nothing `before` did not have, and the same faults. */
  predicate Shrinks(before: FileSystem, after: FileSystem) {
    && after.faults == before.faults
    && after.dirs.Keys <= before.dirs.Keys
    && forall d :: d in after.dirs ==> after.dirs[d] <= before.dirs[d]
  }

  /** `std::fs::remove_file`. */
  function RemoveFile(fs: FileSystem, p: Path): (r: Result<FileSystem, ErrorKind>)
    ensures r.Ok? <==> Display(p) !in fs.faults && Exists(fs, p)
    ensures r.Err? && Display(p) !in fs.faults ==> r.error == NotFound
    ensures r.Ok? ==> Shrinks(fs, r.value) && !Exists(r.value, p) && r.value.dirs.Keys == fs.dirs.Keys
    ensures r.Ok? ==> forall d :: d in fs.dirs && d != p.dir ==> r.value.dirs[d] == fs.dirs[d]
    ensures r.Ok? ==> r.value.dirs[p.dir] == fs.dirs[p.dir] - {p.name}
  {
    var key := Display(p);
    if key in fs.faults then Err(fs.faults[key])
    else if Exists(fs, p) then Ok(fs.(dirs := fs.dirs[p.dir := fs.dirs[p.dir] - {p.name}]))
    else Err(NotFound)
  }

  /** The path of entry `n` of directory `dir`, as a key of `faults`. */
  function EntryKey(dir: string, n: string): string {
    Display(Path(dir, n))
  }

  /** The entries of `dir` whose removal is refused. */
  predicate EntryRefused(fs: FileSystem, dir: string, n: string)
    requires dir in fs.dirs
  {
    n in fs.dirs[dir] && EntryKey(dir, n) in fs.faults
  }

  /** `std::fs::remove_dir_all`: every entry is removed, then the directory; the
      first refusal is returned. Listings are sets, so when several entries are
      refused the kinds are tried in a fixed order: `PermissionDenied` first. */
  function RemoveDirAll(fs: FileSystem, dir: string): (r: Result<FileSystem, ErrorKind>)
    ensures r.Ok? <==> dir !in fs.faults && dir in fs.dirs && forall n :: n in fs.dirs[dir] ==> EntryKey(dir, n) !in fs.faults
    ensures r.Ok? ==> Shrinks(fs, r.value) && r.value.dirs == fs.dirs - {dir}
    ensures r.Err? && dir !in fs.faults && dir in fs.dirs ==>
              exists n :: EntryRefused(fs, dir, n) && r.error == fs.faults[EntryKey(dir, n)]
    ensures r.Err? && dir !in fs.dirs && dir !in fs.faults ==> r.error == NotFound
  {
    if dir in fs.faults then Err(fs.faults[dir])
    else if dir !in fs.dirs then Err(NotFound)
    else
      var kinds := RefusedKinds(fs, dir);
      assert forall n :: EntryRefused(fs, dir, n) ==> fs.faults[EntryKey(dir, n)] in kinds;
      if kinds == {} then
        Ok(fs.(dirs := fs.dirs - {dir}))
      else if PermissionDenied in kinds then Err(PermissionDenied)
      else
        var k :| k in kinds;
        assert k == OtherError;
        Err(OtherError)
  }

  /** The error kinds of the refused entries of `dir`. */
  function RefusedKinds(fs: FileSystem, dir: string): (r: set<FaultKind>)
    requires dir in fs.dirs
    ensures forall k :: k in r <==> exists n :: EntryRefused(fs, dir, n) && fs.faults[EntryKey(dir, n)] == k
  {
    set n | n in fs.dirs[dir] && EntryKey(dir, n) in fs.faults :: fs.faults[EntryKey(dir, n)]
  }

  /** The index file the frame source leaves beside the video: `<file name>.ffindex`. */
  function SidecarPath(video: Path): Path {
    Path(video.dir, video.name + ".ffindex")
  }

  /** First step of `clean`: the whole script directory when it holds at most
      one entry, otherwise the script alone. */
  function RemoveScript(fs: FileSystem, script: Path): Result<FileSystem, ErrorKind>
    requires script.dir in fs.dirs
  {
    if |fs.dirs[script.dir]| <= 1 then RemoveDirAll(fs, script.dir) else RemoveFile(fs, script)
  }

  /** `clean` (src/helpers.rs:21-43). `Err` stands for the panic the source
      raises: reading the script directory fails, a removal of the first step
      fails, or removing the sidecar fails with anything but `NotFound`. */
  function Clean(fs: FileSystem, video: Path, script: Path): (r: Result<FileSystem, ErrorKind>)
    ensures script.dir !in fs.dirs ==> r == Err(NotFound)
    ensures r.Ok? ==> Shrinks(fs, r.value) && !Exists(r.value, SidecarPath(video))
    ensures r.Ok? ==> (script.dir in r.value.dirs <==> |fs.dirs[script.dir]| > 1)
    ensures r.Ok? && script.dir in r.value.dirs ==>
              && script.name !in r.value.dirs[script.dir]
              && forall n :: (n in fs.dirs[script.dir] && n != script.name && Path(script.dir, n) != SidecarPath(video))
                               ==> n in r.value.dirs[script.dir]
    ensures r.Ok? ==> forall d :: d in fs.dirs && d != script.dir && d != video.dir ==>
                                   d in r.value.dirs && r.value.dirs[d] == fs.dirs[d]
    ensures r.Ok? && video.dir != script.dir && video.dir in fs.dirs ==>
              video.dir in r.value.dirs && r.value.dirs[video.dir] == fs.dirs[video.dir] - {SidecarPath(video).name}
    ensures r.Ok? <==> script.dir in fs.dirs && RemoveScript(fs, script).Ok? && Display(SidecarPath(video)) !in fs.faults
    ensures script.dir in fs.dirs && RemoveScript(fs, script).Err? ==> r == RemoveScript(fs, script)
  {
    if script.dir !in fs.dirs then Err(NotFound)
    else
      match RemoveScript(fs, script)
      case Err(k) => Err(k)
      case Ok(fs1) =>
        match RemoveFile(fs1, SidecarPath(video))
        case Ok(fs2) => Ok(fs2)
        case Err(k) => if k == NotFound then Ok(fs1) else Err(k)
  }

  /** A missing sidecar is no error: once the script is removed, `clean` succeeds. */
  lemma CleanToleratesMissingSidecar(fs: FileSystem, video: Path, script: Path)
    requires script.dir in fs.dirs && RemoveScript(fs, script).Ok?
    requires !Exists(RemoveScript(fs, script).value, SidecarPath(video))
    requires Display(SidecarPath(video)) !in fs.faults
    ensures Clean(fs, video, script) == RemoveScript(fs, script)
  {
  }

  /** Any other failure to remove the sidecar is fatal and reported as is. */
  lemma CleanFatalOnOtherSidecarError(fs: FileSystem, video: Path, script: Path)
    requires script.dir in fs.dirs && RemoveScript(fs, script).Ok?
    requires Display(SidecarPath(video)) in fs.faults
    ensures Clean(fs, video, script) == Err(fs.faults[Display(SidecarPath(video))])
  {
  }

  /** Scenario: a temp directory holding only the script is removed whole. */
  lemma CleanScenarioAlone()
    ensures Clean(FileSystem(map["videos" := {"clip.mp4"}, "videos/tmp1" := {"script.vpy"}], map[]),
                  Path("videos", "clip.mp4"), Path("videos/tmp1", "script.vpy"))
            == Ok(FileSystem(map["videos" := {"clip.mp4"}], map[]))
  {
    var fs := FileSystem(map["videos" := {"clip.mp4"}, "videos/tmp1" := {"script.vpy"}], map[]);
    var fs1 := FileSystem(map["videos" := {"clip.mp4"}], map[]);
    assert fs.dirs - {"videos/tmp1"} == fs1.dirs;
    assert RemoveScript(fs, Path("videos/tmp1", "script.vpy")) == Ok(fs1);
    assert "clip.mp4.ffindex" != "clip.mp4";
    assert !Exists(fs1, SidecarPath(Path("videos", "clip.mp4")));
  }

  /** Scenario: with a second entry in the temp directory only the script goes. */
  lemma CleanScenarioShared()
    ensures Clean(FileSystem(map["videos" := {"clip.mp4"}, "videos/tmp1" := {"script.vpy", "other.tmp"}], map[]),
                  Path("videos", "clip.mp4"), Path("videos/tmp1", "script.vpy"))
            == Ok(FileSystem(map["videos" := {"clip.mp4"}, "videos/tmp1" := {"other.tmp"}], map[]))
  {
    var fs := FileSystem(map["videos" := {"clip.mp4"}, "videos/tmp1" := {"script.vpy", "other.tmp"}], map[]);
    var fs1 := FileSystem(map["videos" := {"clip.mp4"}, "videos/tmp1" := {"other.tmp"}], map[]);
    assert "script.vpy" != "other.tmp";
    assert |fs.dirs["videos/tmp1"]| == 2;
    assert {"script.vpy", "other.tmp"} - {"script.vpy"} == {"other.tmp"};
    assert fs.dirs["videos/tmp1" := {"other.tmp"}] == fs1.dirs;
    assert RemoveScript(fs, Path("videos/tmp1", "script.vpy")) == Ok(fs1);
    assert "clip.mp4.ffindex" != "clip.mp4";
    assert !Exists(fs1, SidecarPath(Path("videos", "clip.mp4")));
  }

  /** Scenario: the sidecar `clip.mp4.ffindex` beside the video is removed with the script. */
  lemma CleanScenarioSidecar()
    ensures Clean(FileSystem(map["videos" := {"clip.mp4", "clip.mp4.ffindex"}, "videos/tmp1" := {"script.vpy"}], map[]),
                  Path("videos", "clip.mp4"), Path("videos/tmp1", "script.vpy"))
            == Ok(FileSystem(map["videos" := {"clip.mp4"}], map[]))
  {
    var fs := FileSystem(map["videos" := {"clip.mp4", "clip.mp4.ffindex"}, "videos/tmp1" := {"script.vpy"}], map[]);
    var fs1 := FileSystem(map["videos" := {"clip.mp4", "clip.mp4.ffindex"}], map[]);
    var fs2 := FileSystem(map["videos" := {"clip.mp4"}], map[]);
    assert fs.dirs - {"videos/tmp1"} == fs1.dirs;
    assert RemoveScript(fs, Path("videos/tmp1", "script.vpy")) == Ok(fs1);
    assert "clip.mp4.ffindex" != "clip.mp4";
    assert "clip.mp4" + ".ffindex" == "clip.mp4.ffindex";
    assert SidecarPath(Path("videos", "clip.mp4")) == Path("videos", "clip.mp4.ffindex");
    assert {"clip.mp4", "clip.mp4.ffindex"} - {"clip.mp4.ffindex"} == {"clip.mp4"};
    assert fs1.dirs["videos" := {"clip.mp4"}] == fs2.dirs;
    assert Exists(fs1, SidecarPath(Path("videos", "clip.mp4")));
    assert RemoveFile(fs1, SidecarPath(Path("videos", "clip.mp4"))) == Ok(fs2);
  }

  /** Scenario: a lone script whose removal is refused makes `clean` fail, as it does beside other entries. */
  lemma CleanScenarioRefusedScript(video: Path)
    ensures Clean(FileSystem(map["t" := {"s"}], map["t/s" := PermissionDenied]), video, Path("t", "s"))
            == Err(PermissionDenied)
    ensures Clean(FileSystem(map["t" := {"s", "o"}], map["t/s" := PermissionDenied]), video, Path("t", "s"))
            == Err(PermissionDenied)
  {
    var fs := FileSystem(map["t" := {"s"}], map["t/s" := PermissionDenied]);
    assert EntryKey("t", "s") == "t/s";
    assert EntryRefused(fs, "t", "s");
    var fs2 := FileSystem(map["t" := {"s", "o"}], map["t/s" := PermissionDenied]);
    assert "s" != "o";
    assert |fs2.dirs["t"]| == 2;
    assert Display(Path("t", "s")) == "t/s";
  }

  /** `clean_temp` (src/helpers.rs:45-49): `clean` on each render in list order;
      the first fatal error ends the run. */
  function CleanTemp(fs: FileSystem, renders: seq<Render>): (r: Result<FileSystem, ErrorKind>)
    ensures r.Ok? ==> Shrinks(fs, r.value)
    ensures r.Ok? ==> forall i :: 0 <= i < |renders| ==> !Exists(r.value, SidecarPath(renders[i].videoPath))
    decreases |renders|
  {
    if renders == [] then Ok(fs)
    else
      match Clean(fs, renders[0].videoPath, renders[0].scriptPath)
      case Err(k) => Err(k)
      case Ok(fs1) => CleanTemp(fs1, renders[1..])
  }

  /** Continue cleaning after an earlier outcome, unless it was fatal. */
  function ThenCleanTemp(prior: Result<FileSystem, ErrorKind>, renders: seq<Render>): Result<FileSystem, ErrorKind> {
    match prior
    case Err(k) => Err(k)
    case Ok(fs) => CleanTemp(fs, renders)
  }

  /** Cleaning a list is cleaning its front, then its back: every render is
      cleaned once, in list order. */
  lemma {:induction false} CleanTempAppend(fs: FileSystem, a: seq<Render>, b: seq<Render>)
    ensures CleanTemp(fs, a + b) == ThenCleanTemp(CleanTemp(fs, a), b)
    decreases |a|
  {
    if a != [] {
      assert (a + b)[0] == a[0];
      assert (a + b)[1..] == a[1..] + b;
      match Clean(fs, a[0].videoPath, a[0].scriptPath)
      case Err(k) =>
      case Ok(fs1) => CleanTempAppend(fs1, a[1..], b);
    } else {
      assert a + b == b;
    }
  }

  /** Cleaning a single render is one `clean`. */
  lemma CleanTempSingle(fs: FileSystem, render: Render)
    ensures CleanTemp(fs, [render]) == Clean(fs, render.videoPath, render.scriptPath)
  {
  }
}

=== FILE: config.dfy ===
/** The settings snapshot a render carries. Only the fields the command
    builder and `Render::new` read are kept. Floating-point values appear
    through what the code asks of them: whether a timescale equals 1.0, and
    the text Rust's `Display` prints for a value. */
module Config {
  import opened Wrappers

  /** `timescale`: `inputIsOne`/`outputIsOne` say whether `input`/`output` equal 1.0;
      `inputSpeedText` is the display of `1.0 / input`, `outputText` that of `output`. */
  datatype Timescale = Timescale(
    inputIsOne: bool,
    inputSpeedText: string,
    outputIsOne: bool,
    outputText: string,
    adjustAudioPitch: bool)

  datatype Settings = Settings(
    quality: nat,
    container: string,
    detailedFilename: bool,
    gpu: bool,
    gpuType: string,
    customFfmpegFilters: Option<string>,
    timescale: Timescale,
    interpolationEnabled: bool,
    interpolationFps: string,
    interpolationProgram: string,
    blendingEnabled: bool,
    blendingOutputFps: string,
    blendingAmount: string)
}

=== FILE: ffmpegcommand.dfy ===
/** `Rendering::build_ffmpeg_command` (src/rendering.rs:163-327): the argument
    vectors of the frame source (`vspipe`) and the transcoder (`ffmpeg`), the
    executables to run, and the output name reported to the user. */
module FfmpegCommand {
  import opened Wrappers
  import opened Text
  import opened Paths
  import opened Config

  /** `CommandWithArgs`. */
  datatype CommandWithArgs = CommandWithArgs(
    ffmpegExe: string,
    ffmpegArgs: seq<string>,
    vspipeExe: string,
    vspipeArgs: seq<string>,
    outputFilename: string)

  /** What the host reports: the answer of `used_installer()` and the directory
      of the running executable; either query can fail with an I/O error. */
  datatype Host = Host(usedInstaller: Result<bool, ErrorKind>, exeDir: Result<string, ErrorKind>)

  datatype Executables = Executables(vspipe: string, ffmpeg: string)

  /** The executables: bare names looked up on the search path, or the bundled
      copies beside the running executable when the installer layout is in use. */
  function ResolveExecutables(host: Host): Result<Executables, ErrorKind> {
    match host.usedInstaller
    case Err(k) => Err(k)
    case Ok(false) => Ok(Executables("vspipe", "ffmpeg"))
    case Ok(true) =>
      match host.exeDir
      case Err(k) => Err(k)
      case Ok(dir) => Ok(Executables(dir + "/lib/vapoursynth/VSPipe.exe", dir + "/lib/ffmpeg/ffmpeg.exe"))
  }

  /** The frame source's arguments: stream the script's frames as y4m to stdout and report progress. */
  function PipeArgs(script: Path): seq<string> {
    [Display(script), "-", "-p", "-c", "y4m"]
  }

  /** The transcoder's fixed leading arguments: frames from stdin, audio from the original video. */
  function InputArgs(video: Path): seq<string> {
    ["-loglevel", "error", "-hide_banner", "-nostats",
     "-i", "-", "-i", Display(video), "-map", "0:v", "-map", "1:a?"]
  }

  /** Resampling that undoes the input timescale (changes pitch). */
  function InputFilter(ts: Timescale): string {
    "asetrate=48000*" + ts.inputSpeedText
  }

  /** The output timescale: resampling when the pitch is to follow, tempo change otherwise. */
  function OutputFilter(ts: Timescale): string {
    if ts.adjustAudioPitch then "asetrate=48000*" + ts.outputText else "atempo=" + ts.outputText
  }

  /** The audio filter chain of src/rendering.rs:209-226. */
  function AudioFilterChain(ts: Timescale): string {
    var speed := if ts.inputIsOne then "" else InputFilter(ts);
    if ts.outputIsOne then speed
    else speed + (if speed != "" then "," else "") + OutputFilter(ts)
  }

  /** `-af <chain>` when the chain is not empty. */
  function AudioArgs(ts: Timescale): seq<string> {
    var chain := AudioFilterChain(ts);
    if chain == "" then [] else ["-af", chain]
  }

  /** Video encoder flags (src/rendering.rs:240-280). */
  function VideoCodecArgs(s: Settings, stdout: bool): seq<string> {
    var quality := NatToString(s.quality);
    if s.gpu then
      var vendor := ToLower(s.gpuType);
      if vendor == "nvidia" then
        ["-c:v", "h264_nvenc", "-preset", "p7", "-qp", quality]
      else if vendor == "amd" then
        ["-c:v", "h264_amf", "-qp_i", quality, "-qp_b", quality, "-qp_p", quality, "-quality", "quality"]
      else if vendor == "intel" then
        ["-c:v", "h264_qsv", "-global_quality", quality, "-preset", "veryslow"]
      else
        []
    else if !stdout then
      ["-c:v", "libx264", "-preset", "superfast", "-crf", quality]
    else
      ["-c:v", "rawvideo"]
  }

  const AudioCodecArgs: seq<string> := ["-c:a", "aac", "-b:a", "320k"]

  const FastStartArgs: seq<string> := ["-movflags", "+faststart"]

  /** Codec flags: none at all when custom filters are configured. */
  function EncoderArgs(s: Settings, stdout: bool): seq<string> {
    if s.customFfmpegFilters.Some? then [] else VideoCodecArgs(s, stdout) + AudioCodecArgs + FastStartArgs
  }

  /** Whether the output is renamed after the interpolation and blending parameters. */
  predicate DetailedFilename(s: Settings) {
    s.detailedFilename && s.interpolationEnabled && s.blendingEnabled
  }

  /** The detailed base name `{stem}-{fps}fps-{program}~{output fps}fps-{amount}`. */
  function DetailedName(output: Path, s: Settings): string {
    FileStem(output) + "-" + s.interpolationFps + "fps-" + s.interpolationProgram
      + "~" + s.blendingOutputFps + "fps-" + s.blendingAmount
  }

  /** The renaming as src/rendering.rs:294-305 writes it: through `change_file_name`,
      whose `set_extension` cuts the detailed name at its last dot. */
  function DetailedOutputPathAsWritten(output: Path, s: Settings): (r: Path)
    ensures r.dir == output.dir
    ensures Extension(output).None? ==> r.name == DetailedName(output, s)
    ensures Extension(output).Some? && Extension(output).value != "" ==>
              Extension(r) == Extension(output) && FileStem(r) <= DetailedName(output, s)
    ensures Extension(output).Some? && Extension(output).value != "" ==>
              (FileStem(r) == DetailedName(output, s)
               <==> forall j :: 0 < j < |DetailedName(output, s)| ==> DetailedName(output, s)[j] != '.')
  {
    var name := DetailedName(output, s);
    WholeStem(name);
    ChangeFileName(output, name)
  }

  /** The renaming as intended: the whole new name, followed by the original extension. */
  function KeepExtension(output: Path, name: string): (r: Path)
    ensures r.dir == output.dir
    ensures Extension(output).Some? && Extension(output).value != "" && name != "" ==>
              FileStem(r) == name && Extension(r) == Extension(output)
    ensures Extension(output).None? || Extension(output) == Some("") ==> r.name == name
  {
    match Extension(output)
    case Some(ext) =>
      if ext == "" || name == "" then Path(output.dir, name)
      else
        SplitNameRecompose(output.name);
        SplitNameJoin(name, ext);
        Path(output.dir, name + "." + ext)
    case None => Path(output.dir, name)
  }

  /** `change_file_name` keeps the whole new name exactly when the original has no
      extension or the new name is its own stem. */
  lemma {:induction false} RenamesAgreeOnStem(output: Path, name: string)
    requires name != ""
    ensures ChangeFileName(output, name) == KeepExtension(output, name)
            <==> Extension(output).None? || SplitName(name).0 == name
  {
    SplitNameRecompose(name);
    var w := ChangeFileName(output, name);
    var c := KeepExtension(output, name);
    if Extension(output).Some? {
      var ext := Extension(output).value;
      var stem := SplitName(name).0;
      if ext == "" {
        assert w.name == stem && c.name == name;
      } else {
        assert FileStem(w) == stem && FileStem(c) == name;
      }
    }
  }

  /** `change_file_name` keeps the whole new name exactly when the original has no
      extension or no dot follows the new name's first character. */
  lemma {:induction false} RenamesAgree(output: Path, name: string)
    requires name != "" && name != ".."
    ensures ChangeFileName(output, name) == KeepExtension(output, name)
            <==> Extension(output).None? || forall j :: 0 < j < |name| ==> name[j] != '.'
  {
    RenamesAgreeOnStem(output, name);
    WholeStem(name);
  }

  /** The renaming as intended: the whole detailed name, followed by the original extension. */
  function DetailedOutputPath(output: Path, s: Settings): (r: Path)
    ensures r.dir == output.dir
    ensures Extension(output).Some? && Extension(output).value != "" ==>
              FileStem(r) == DetailedName(output, s) && Extension(r) == Extension(output)
    ensures Extension(output).None? || Extension(output) == Some("") ==> r.name == DetailedName(output, s)
  {
    KeepExtension(output, DetailedName(output, s))
  }

  /** The source's rename and the corrected one agree exactly when the original has no
      extension or no dot follows the first character of the detailed name. */
  lemma DetailedRenamesAgree(output: Path, s: Settings)
    ensures DetailedOutputPathAsWritten(output, s) == DetailedOutputPath(output, s)
            <==> Extension(output).None?
                 || forall j :: 0 < j < |DetailedName(output, s)| ==> DetailedName(output, s)[j] != '.'
  {
    var name := DetailedName(output, s);
    assert |name| > 2;
    RenamesAgree(output, name);
  }

  /** Output flags and the output name. */
  datatype OutputTarget = OutputTarget(flags: seq<string>, file: string)

  /** The output target, in priority order: the detailed rename, then streaming
      to stdout as NUT, then the plain output path (src/rendering.rs:290-313). */
  function ResolveOutput(output: Path, s: Settings, stdout: bool): OutputTarget {
    if DetailedFilename(s) then OutputTarget([], Display(DetailedOutputPathAsWritten(output, s)))
    else if stdout then OutputTarget(["-f", "nut"], "-")
    else OutputTarget([], Display(output))
  }

  /** The options between the fixed leading arguments and the output name. */
  function Options(args: seq<string>): seq<string> {
    if |args| >= 13 then args[12..|args| - 1] else []
  }

  /** `build_ffmpeg_command`. */
  function BuildFfmpegCommand(script: Path, video: Path, output: Path, s: Settings, stdout: bool, host: Host)
    : (r: Result<CommandWithArgs, ErrorKind>)
    ensures r.Err? <==> host.usedInstaller.Err? || (host.usedInstaller == Ok(true) && host.exeDir.Err?)
    ensures host.usedInstaller == Ok(false) ==> r.Ok? && r.value.vspipeExe == "vspipe" && r.value.ffmpegExe == "ffmpeg"
    ensures host.usedInstaller == Ok(true) && host.exeDir.Ok? ==>
              r.Ok? && r.value.vspipeExe == host.exeDir.value + "/lib/vapoursynth/VSPipe.exe"
              && r.value.ffmpegExe == host.exeDir.value + "/lib/ffmpeg/ffmpeg.exe"
    ensures r.Ok? ==> r.value.vspipeArgs == [Display(script), "-", "-p", "-c", "y4m"]
    ensures r.Ok? ==> |r.value.ffmpegArgs| >= 13 && r.value.ffmpegArgs[..12] == InputArgs(video)
    ensures r.Ok? ==> r.value.ffmpegArgs[|r.value.ffmpegArgs| - 1] == r.value.outputFilename
    ensures r.Ok? ==> r.value.ffmpegArgs == r.value.ffmpegArgs[..12] + Options(r.value.ffmpegArgs) + [r.value.outputFilename]
    ensures r.Ok? ==> Options(r.value.ffmpegArgs)
                      == AudioArgs(s.timescale) + EncoderArgs(s, stdout) + ResolveOutput(output, s, stdout).flags
    ensures r.Ok? ==> r.value.outputFilename == ResolveOutput(output, s, stdout).file
  {
    match ResolveExecutables(host)
    case Err(k) => Err(k)
    case Ok(exes) =>
      var target := ResolveOutput(output, s, stdout);
      var options := AudioArgs(s.timescale) + EncoderArgs(s, stdout) + target.flags;
      var args := InputArgs(video) + options + [target.file];
      assert args[..12] == InputArgs(video);
      assert Options(args) == options;
      Ok(CommandWithArgs(exes.ffmpeg, args, exes.vspipe, PipeArgs(script), target.file))
  }

  /** The tokens codec flags are made of: fixed words and the quality number. */
  const EncoderVocabulary: set<string> := {
    "-c:v", "h264_nvenc", "-preset", "p7", "-qp", "h264_amf", "-qp_i", "-qp_b", "-qp_p",
    "-quality", "quality", "h264_qsv", "-global_quality", "veryslow", "libx264", "superfast",
    "-crf", "rawvideo", "-c:a", "aac", "-b:a", "320k", "-movflags", "+faststart"}

  lemma EncoderTokens(s: Settings, stdout: bool)
    ensures forall t :: t in EncoderArgs(s, stdout) ==> t in EncoderVocabulary || t == NatToString(s.quality)
  {
  }

  /** A quality number never reads as a flag. */
  lemma QualityIsNotAFlag(q: nat, flag: string)
    requires |flag| > 0 && flag[0] == '-'
    ensures NatToString(q) != flag
  {
    assert IsDigit(NatToString(q)[0]);
  }

  /** A flag outside the codec vocabulary is never among the codec flags. */
  lemma EncoderArgsLack(s: Settings, stdout: bool, flag: string)
    requires |flag| > 0 && flag[0] == '-' && flag !in EncoderVocabulary
    ensures flag !in EncoderArgs(s, stdout)
  {
    EncoderTokens(s, stdout);
    QualityIsNotAFlag(s.quality, flag);
  }

  /** A flag other than `-af` is never among the audio arguments. */
  lemma AudioArgsLack(ts: Timescale, flag: string)
    requires |flag| > 0 && flag[0] == '-' && flag != "-af"
    ensures flag !in AudioArgs(ts)
  {
    AudioFilterChainPresence(ts);
    var chain := AudioFilterChain(ts);
    if chain != "" {
      assert chain[0] != flag[0];
    }
  }

  /** The audio filter chain (src/rendering.rs:209-226) is empty exactly when
      both timescales are 1.0, and otherwise starts with a filter name. */
  lemma AudioFilterChainPresence(ts: Timescale)
    ensures AudioFilterChain(ts) == "" <==> ts.inputIsOne && ts.outputIsOne
    ensures AudioFilterChain(ts) != "" ==> AudioFilterChain(ts)[0] == 'a'
  {
    var chain := AudioFilterChain(ts);
    if !ts.inputIsOne {
      assert chain[0] == InputFilter(ts)[0];
    } else if !ts.outputIsOne {
      assert chain == OutputFilter(ts);
    }
  }

  /** The input part comes first and the output part second, with one comma
      between them when both apply; the output part resamples when the pitch
      is to follow and changes the tempo otherwise. */
  lemma AudioFilterChainOrder(ts: Timescale)
    ensures !ts.inputIsOne && ts.outputIsOne ==> AudioFilterChain(ts) == "asetrate=48000*" + ts.inputSpeedText
    ensures ts.inputIsOne && !ts.outputIsOne ==> AudioFilterChain(ts) == OutputFilter(ts)
    ensures !ts.inputIsOne && !ts.outputIsOne ==>
              AudioFilterChain(ts) == "asetrate=48000*" + ts.inputSpeedText + "," + OutputFilter(ts)
    ensures ts.adjustAudioPitch ==> OutputFilter(ts) == "asetrate=48000*" + ts.outputText
    ensures !ts.adjustAudioPitch ==> OutputFilter(ts) == "atempo=" + ts.outputText
  {
    if !ts.inputIsOne {
      assert InputFilter(ts) != "";
    }
  }

  /** When the displayed factors hold no comma, the chain holds one comma if
      both timescales apply and none otherwise. */
  lemma AudioFilterChainOneComma(ts: Timescale)
    requires ',' !in ts.inputSpeedText && ',' !in ts.outputText
    ensures multiset(AudioFilterChain(ts))[','] == (if !ts.inputIsOne && !ts.outputIsOne then 1 else 0)
  {
    var inPart := InputFilter(ts);
    var outPart := OutputFilter(ts);
    assert ',' !in inPart by {
      assert inPart == "asetrate=48000*" + ts.inputSpeedText;
    }
    assert ',' !in outPart;
    assert multiset(inPart)[','] == 0;
    assert multiset(outPart)[','] == 0;
    if !ts.inputIsOne && !ts.outputIsOne {
      assert AudioFilterChain(ts) == inPart + [','] + outPart;
      assert multiset(AudioFilterChain(ts)) == multiset(inPart) + multiset{','} + multiset(outPart);
    } else if !ts.inputIsOne {
      assert AudioFilterChain(ts) == inPart;
    } else if !ts.outputIsOne {
      assert AudioFilterChain(ts) == outPart;
    }
  }

  /** `-af` is passed exactly when a timescale differs from 1.0, and then it
      opens the options, followed by the filter chain. */
  lemma BuildAudioFlag(script: Path, video: Path, output: Path, s: Settings, stdout: bool, host: Host)
    requires BuildFfmpegCommand(script, video, output, s, stdout, host).Ok?
    ensures var o := Options(BuildFfmpegCommand(script, video, output, s, stdout, host).value.ffmpegArgs);
            && ("-af" in o <==> !(s.timescale.inputIsOne && s.timescale.outputIsOne))
            && ("-af" in o ==> |o| >= 2 && o[0] == "-af" && o[1] == AudioFilterChain(s.timescale))
  {
    EncoderArgsLack(s, stdout, "-af");
    AudioFlagPlacement(s.timescale, EncoderArgs(s, stdout), ResolveOutput(output, s, stdout).flags);
  }

  /** `-af` and the chain open a list whose other tokens are never `-af`. */
  lemma AudioFlagPlacement(ts: Timescale, codecs: seq<string>, flags: seq<string>)
    requires "-af" !in codecs && "-af" !in flags
    ensures var o := AudioArgs(ts) + codecs + flags;
            && ("-af" in o <==> !(ts.inputIsOne && ts.outputIsOne))
            && ("-af" in o ==> |o| >= 2 && o[0] == "-af" && o[1] == AudioFilterChain(ts))
  {
    AudioFilterChainPresence(ts);
    var o := AudioArgs(ts) + codecs + flags;
    if ts.inputIsOne && ts.outputIsOne {
      assert o == codecs + flags;
    } else {
      assert o[0] == "-af" && o[1] == AudioFilterChain(ts);
    }
  }

  /** With custom filters configured no codec or faststart flag is passed. */
  lemma BuildCustomFiltersSuppressCodecs(script: Path, video: Path, output: Path, s: Settings, stdout: bool, host: Host)
    requires BuildFfmpegCommand(script, video, output, s, stdout, host).Ok?
    requires s.customFfmpegFilters.Some?
    ensures var o := Options(BuildFfmpegCommand(script, video, output, s, stdout, host).value.ffmpegArgs);
            "-c:v" !in o && "-c:a" !in o && "-movflags" !in o
  {
    AudioArgsLack(s.timescale, "-c:v");
    AudioArgsLack(s.timescale, "-c:a");
    AudioArgsLack(s.timescale, "-movflags");
    assert EncoderArgs(s, stdout) == [];
  }

  /** Without custom filters the options are the audio flags, the video
      encoder flags, AAC at 320k, faststart, then the output flags. */
  lemma BuildDefaultCodecs(script: Path, video: Path, output: Path, s: Settings, stdout: bool, host: Host)
    requires BuildFfmpegCommand(script, video, output, s, stdout, host).Ok?
    requires s.customFfmpegFilters.None?
    ensures Options(BuildFfmpegCommand(script, video, output, s, stdout, host).value.ffmpegArgs)
            == AudioArgs(s.timescale) + VideoCodecArgs(s, stdout)
               + ["-c:a", "aac", "-b:a", "320k", "-movflags", "+faststart"]
               + ResolveOutput(output, s, stdout).flags
  {
    assert EncoderArgs(s, stdout) == VideoCodecArgs(s, stdout) + ["-c:a", "aac", "-b:a", "320k", "-movflags", "+faststart"];
  }

  /** The video encoder flags: the GPU vendor is matched ignoring case, an
      unknown vendor gives no flags, and without a GPU the software encoder is
      used for files and raw video for stdout. */
  lemma VideoEncoderFlags(s: Settings, stdout: bool)
    ensures var q := NatToString(s.quality);
            var v := VideoCodecArgs(s, stdout);
            && (s.gpu && SameIgnoringCase(s.gpuType, "nvidia") ==> v == ["-c:v", "h264_nvenc", "-preset", "p7", "-qp", q])
            && (s.gpu && SameIgnoringCase(s.gpuType, "amd") ==>
                  v == ["-c:v", "h264_amf", "-qp_i", q, "-qp_b", q, "-qp_p", q, "-quality", "quality"])
            && (s.gpu && SameIgnoringCase(s.gpuType, "intel") ==>
                  v == ["-c:v", "h264_qsv", "-global_quality", q, "-preset", "veryslow"])
            && (s.gpu && !SameIgnoringCase(s.gpuType, "nvidia") && !SameIgnoringCase(s.gpuType, "amd")
                && !SameIgnoringCase(s.gpuType, "intel")
                ==> v == [])
            && (!s.gpu && !stdout ==> v == ["-c:v", "libx264", "-preset", "superfast", "-crf", q])
            && (!s.gpu && stdout ==> v == ["-c:v", "rawvideo"])
  {
    LowerMatchesLiteral(s.gpuType, "nvidia");
    LowerMatchesLiteral(s.gpuType, "amd");
    LowerMatchesLiteral(s.gpuType, "intel");
  }

  /** An unrecognised GPU vendor leaves the video codec to ffmpeg's defaults. */
  lemma BuildUnknownVendorNoVideoCodec(script: Path, video: Path, output: Path, s: Settings, stdout: bool, host: Host)
    requires BuildFfmpegCommand(script, video, output, s, stdout, host).Ok?
    requires s.gpu && !SameIgnoringCase(s.gpuType, "nvidia") && !SameIgnoringCase(s.gpuType, "amd")
             && !SameIgnoringCase(s.gpuType, "intel")
    ensures "-c:v" !in Options(BuildFfmpegCommand(script, video, output, s, stdout, host).value.ffmpegArgs)
  {
    VideoEncoderFlags(s, stdout);
    assert "-c:v" !in EncoderArgs(s, stdout) by {
      if s.customFfmpegFilters.None? {
        assert EncoderArgs(s, stdout) == AudioCodecArgs + FastStartArgs;
      }
    }
    AudioArgsLack(s.timescale, "-c:v");
  }

  /** Vendor names that differ only in letter case build the same commands. */
  lemma BuildGpuVendorCaseInsensitive(script: Path, video: Path, output: Path, s: Settings, stdout: bool, host: Host,
                                      vendor: string)
    requires SameIgnoringCase(s.gpuType, vendor)
    ensures BuildFfmpegCommand(script, video, output, s, stdout, host)
            == BuildFfmpegCommand(script, video, output, s.(gpuType := vendor), stdout, host)
  {
    LowerEqualIffSameIgnoringCase(s.gpuType, vendor);
    assert VideoCodecArgs(s, stdout) == VideoCodecArgs(s.(gpuType := vendor), stdout);
    assert DetailedOutputPathAsWritten(output, s) == DetailedOutputPathAsWritten(output, s.(gpuType := vendor));
  }

  /** Exactly one output form is used: the detailed rename (never with `-f nut`),
      else streaming as NUT to `-`, else the plain output path. */
  lemma BuildOutputTarget(script: Path, video: Path, output: Path, s: Settings, stdout: bool, host: Host)
    requires BuildFfmpegCommand(script, video, output, s, stdout, host).Ok?
    ensures var c := BuildFfmpegCommand(script, video, output, s, stdout, host).value;
            var o := Options(c.ffmpegArgs);
            && (DetailedFilename(s) ==> c.outputFilename == Display(ChangeFileName(output, DetailedName(output, s))) && "-f" !in o)
            && (!DetailedFilename(s) && stdout ==> c.outputFilename == "-" && |o| >= 2 && o[|o| - 2..] == ["-f", "nut"])
            && (!DetailedFilename(s) && !stdout ==> c.outputFilename == Display(output) && "-f" !in o)
  {
    var t := ResolveOutput(output, s, stdout);
    AudioArgsLack(s.timescale, "-f");
    EncoderArgsLack(s, stdout, "-f");
    var o := AudioArgs(s.timescale) + EncoderArgs(s, stdout) + t.flags;
    if !DetailedFilename(s) && stdout {
      assert o[|o| - 2..] == ["-f", "nut"];
    } else {
      assert o == AudioArgs(s.timescale) + EncoderArgs(s, stdout);
    }
  }


  /** `build_ffmpeg_command` with the corrected rename: the same command, except that a
      detailed output name keeps the whole detailed name before the extension. */
  function BuildFfmpegCommandCorrected(script: Path, video: Path, output: Path, s: Settings, stdout: bool, host: Host)
    : (r: Result<CommandWithArgs, ErrorKind>)
    ensures r.Err? <==> BuildFfmpegCommand(script, video, output, s, stdout, host).Err?
    ensures r.Ok? ==> var c := BuildFfmpegCommand(script, video, output, s, stdout, host).value;
                      && r.value.vspipeExe == c.vspipeExe && r.value.vspipeArgs == c.vspipeArgs
                      && r.value.ffmpegExe == c.ffmpegExe
                      && |r.value.ffmpegArgs| == |c.ffmpegArgs|
                      && r.value.ffmpegArgs[..|c.ffmpegArgs| - 1] == c.ffmpegArgs[..|c.ffmpegArgs| - 1]
                      && r.value.ffmpegArgs[|c.ffmpegArgs| - 1] == r.value.outputFilename
    ensures r.Ok? && DetailedFilename(s) ==> r.value.outputFilename == Display(DetailedOutputPath(output, s))
    ensures !DetailedFilename(s) ==> r == BuildFfmpegCommand(script, video, output, s, stdout, host)
  {
    match BuildFfmpegCommand(script, video, output, s, stdout, host)
    case Err(k) => Err(k)
    case Ok(c) =>
      if DetailedFilename(s) then
        var file := Display(DetailedOutputPath(output, s));
        Ok(c.(ffmpegArgs := c.ffmpegArgs[..|c.ffmpegArgs| - 1] + [file], outputFilename := file))
      else Ok(c)
  }

  /** The corrected builder changes the command exactly when the source's rename
      loses part of the detailed name. */
  lemma CorrectedBuilderAgrees(script: Path, video: Path, output: Path, s: Settings, stdout: bool, host: Host)
    ensures BuildFfmpegCommandCorrected(script, video, output, s, stdout, host)
              == BuildFfmpegCommand(script, video, output, s, stdout, host)
            <==> BuildFfmpegCommand(script, video, output, s, stdout, host).Err? || !DetailedFilename(s)
                 || DetailedOutputPathAsWritten(output, s) == DetailedOutputPath(output, s)
  {
    var b := BuildFfmpegCommand(script, video, output, s, stdout, host);
    if b.Ok? && DetailedFilename(s) {
      var w := DetailedOutputPathAsWritten(output, s);
      var c := DetailedOutputPath(output, s);
      DisplayInjective(output.dir, w.name, c.name);
      assert b.value.outputFilename == Display(w);
      if w == c {
        var args := b.value.ffmpegArgs;
        assert args == args[..|args| - 1] + [Display(c)];
      }
    }
  }

  /** Scenario: output timescale 2 without pitch adjustment is a plain tempo change. */
  lemma ScenarioTempoOnly()
    ensures AudioFilterChain(Timescale(true, "1", false, "2", false)) == "atempo=2"
  {
  }

  /** Scenario: input timescale 0.5 resamples at twice the rate. */
  lemma ScenarioInputOnly()
    ensures AudioFilterChain(Timescale(false, "2", true, "1", false)) == "asetrate=48000*2"
  {
  }

  /** Scenario: GPU on, vendor `NVIDIA`, quality 20. */
  lemma ScenarioNvidia(s: Settings, stdout: bool)
    requires s.gpu && s.gpuType == "NVIDIA" && s.quality == 20
    ensures VideoCodecArgs(s, stdout) == ["-c:v", "h264_nvenc", "-preset", "p7", "-qp", "20"]
  {
    assert ToLower("NVIDIA") == "nvidia";
    assert DigitChar(2) == '2' && DigitChar(0) == '0';
    assert NatToString(2) == "2";
    assert NatToString(20) == NatToString(2) + [DigitChar(0)] == "20";
    assert ToLower(s.gpuType) == "nvidia";
  }

  /** Scenario: streaming to stdout without a GPU sends raw video as NUT to `-`. */
  lemma ScenarioStdoutRaw(output: Path, s: Settings)
    requires !s.gpu && !DetailedFilename(s)
    ensures VideoCodecArgs(s, true) == ["-c:v", "rawvideo"]
    ensures ResolveOutput(output, s, true) == OutputTarget(["-f", "nut"], "-")
  {
  }

  /** A dot in the blending amount gives the detailed name a last dot after its first character. */
  lemma DetailedNameHasDot(output: Path, s: Settings)
    requires '.' in s.blendingAmount
    ensures LastDot(DetailedName(output, s)).Some? && LastDot(DetailedName(output, s)).value > 0
  {
    var name := DetailedName(output, s);
    var prefix := FileStem(output) + "-" + s.interpolationFps + "fps-" + s.interpolationProgram
                  + "~" + s.blendingOutputFps + "fps-";
    assert name == prefix + s.blendingAmount;
    var i :| 0 <= i < |s.blendingAmount| && s.blendingAmount[i] == '.';
    assert name[|prefix| + i] == '.';
    assert |prefix| > 0;
  }

  /** As written, a blending amount with a fractional part loses it: the stem of
      the renamed file is shorter than the detailed name it was meant to carry. */
  lemma AsWrittenDetailedNameTruncated(output: Path, s: Settings)
    requires Extension(output).Some? && Extension(output).value != ""
    requires '.' in s.blendingAmount
    ensures FileStem(DetailedOutputPathAsWritten(output, s)) != DetailedName(output, s)
    ensures |FileStem(DetailedOutputPathAsWritten(output, s))| < |DetailedName(output, s)|
  {
    var name := DetailedName(output, s);
    DetailedNameHasDot(output, s);
    assert name != "..";
    assert |SplitName(name).0| < |name|;
  }

  /** The discrepancy on one input: with amount 0.5, `clip_blur.mp4` becomes `clip_blur-60fps-svp~60fps-0.mp4`. */
  lemma AsWrittenDetailedNameExample()
    ensures DetailedOutputPathAsWritten(Path("videos", "clip_blur.mp4"), ExampleSettings())
            == Path("videos", "clip_blur-60fps-svp~60fps-0.mp4")
  {
    var out := Path("videos", "clip_blur.mp4");
    ExampleDetailedName();
    var name := "clip_blur-60fps-svp~60fps-0.5";
    SplitNameJoin("clip_blur-60fps-svp~60fps-0", "5");
    assert name == "clip_blur-60fps-svp~60fps-0" + "." + "5";
    assert SplitName(name).0 == "clip_blur-60fps-svp~60fps-0";
    assert "clip_blur-60fps-svp~60fps-0.mp4" == "clip_blur-60fps-svp~60fps-0" + "." + "mp4";
  }

  /** The corrected renaming on the same input keeps `0.5`. */
  lemma DetailedNameExample()
    ensures DetailedOutputPath(Path("videos", "clip_blur.mp4"), ExampleSettings())
            == Path("videos", "clip_blur-60fps-svp~60fps-0.5.mp4")
  {
    ExampleDetailedName();
    assert "clip_blur-60fps-svp~60fps-0.5.mp4" == "clip_blur-60fps-svp~60fps-0.5" + "." + "mp4";
  }

  /** The discrepancy at the level of the command: the source reports and writes
      `videos/clip_blur-60fps-svp~60fps-0.mp4`, the corrected builder keeps `0.5`. */
  lemma BuildExampleOutputName(script: Path, video: Path, stdout: bool, host: Host)
    requires BuildFfmpegCommand(script, video, Path("videos", "clip_blur.mp4"), ExampleSettings(), stdout, host).Ok?
    ensures BuildFfmpegCommand(script, video, Path("videos", "clip_blur.mp4"), ExampleSettings(), stdout, host)
              .value.outputFilename == Display(Path("videos", "clip_blur-60fps-svp~60fps-0.mp4"))
    ensures BuildFfmpegCommandCorrected(script, video, Path("videos", "clip_blur.mp4"), ExampleSettings(), stdout, host)
              .value.outputFilename == Display(Path("videos", "clip_blur-60fps-svp~60fps-0.5.mp4"))
  {
    assert DetailedFilename(ExampleSettings());
    AsWrittenDetailedNameExample();
    DetailedNameExample();
  }

  /** Detailed filename on, 60 fps interpolation by `svp`, 60 fps blending of amount 0.5. */
  function ExampleSettings(): Settings {
    Settings(20, "mp4", true, false, "", None, Timescale(true, "1", true, "1", false),
             true, "60", "svp", true, "60", "0.5")
  }

  lemma ExampleDetailedName()
    ensures Extension(Path("videos", "clip_blur.mp4")) == Some("mp4")
    ensures DetailedName(Path("videos", "clip_blur.mp4"), ExampleSettings()) == "clip_blur-60fps-svp~60fps-0.5"
  {
    SplitNameJoin("clip_blur", "mp4");
    assert "clip_blur.mp4" == "clip_blur" + "." + "mp4";
  }
}

=== FILE: paths.dfy ===
/** The part of Rust's `Path`/`PathBuf` that the renderer relies on, and
    `change_file_name` (src/helpers.rs). A path is its parent's text and its
    final file name; names are kept as opaque strings. */
module Paths {
  import opened Wrappers

  /** A path with a final file-name component: `dir` is the text of its parent
      (empty for a bare relative name), `name` its file name. */
  datatype Path = Path(dir: string, name: string)

  /** `Path::display`: parent and name joined by one separator, as `PathBuf::push` joins them. */
  function Display(p: Path): string {
    if p.dir == [] || p.dir[|p.dir| - 1] == '/' then p.dir + p.name else p.dir + "/" + p.name
  }

  /** A component of a path as `Path::components` yields it. */
  datatype Component = RootDir | CurDir | ParentDir | Normal(text: string)

  /** The text of a path cut at every `/`, empty pieces included. */
  function Segments(s: string): (r: seq<string>)
    ensures |r| >= 1
    ensures forall k :: 0 <= k < |r| ==> '/' !in r[k]
    decreases |s|
  {
    if s == [] then [[]]
    else
      var rest := Segments(s[1..]);
      if s[0] == '/' then [[]] + rest else [[s[0]] + rest[0]] + rest[1..]
  }

  /** The components named by pieces: empty pieces and `.` name none. */
  function Normals(pieces: seq<string>): (r: seq<Component>)
    ensures forall k :: 0 <= k < |r| ==> r[k] != RootDir && r[k] != CurDir && r[k] != Normal("") && r[k] != Normal(".")
    decreases |pieces|
  {
    if pieces == [] then []
    else
      var head := if pieces[0] == "" || pieces[0] == "." then []
                  else if pieces[0] == ".." then [ParentDir] else [Normal(pieces[0])];
      head + Normals(pieces[1..])
  }

  /** `Path::components` of a Unix path: a leading `/` is the root, a leading `.` is
      kept, and repeated separators and every other `.` are dropped. */
  function Components(s: string): (r: seq<Component>)
    ensures forall k :: 0 < k < |r| ==> r[k] != RootDir && r[k] != CurDir
    ensures forall k :: 0 <= k < |r| ==> r[k] != Normal("") && r[k] != Normal(".")
  {
    PiecesComponents(s != [] && s[0] == '/', Segments(s))
  }

  /** The components of a path cut into `pieces`, `rooted` when it starts with `/`. */
  function PiecesComponents(rooted: bool, pieces: seq<string>): (r: seq<Component>)
    requires |pieces| >= 1
    ensures forall k :: 0 < k < |r| ==> r[k] != RootDir && r[k] != CurDir
    ensures forall k :: 0 <= k < |r| ==> r[k] != Normal("") && r[k] != Normal(".")
  {
    if rooted then [RootDir] + Normals(pieces[1..])
    else if pieces[0] == "." then [CurDir] + Normals(pieces[1..])
    else Normals(pieces)
  }

  /** An empty or `.` piece after the first names no component. */
  lemma PiecesSkip(rooted: bool, p: seq<string>, x: string, q: seq<string>)
    requires p != [] && (x == "" || x == ".")
    ensures PiecesComponents(rooted, p + ([x] + q)) == PiecesComponents(rooted, p + q)
  {
    assert (p + ([x] + q))[0] == p[0] && (p + q)[0] == p[0];
    assert (p + ([x] + q))[1..] == p[1..] + ([x] + q);
    assert (p + q)[1..] == p[1..] + q;
    NormalsSkip(p[1..], x, q);
    NormalsSkip(p, x, q);
  }

  /** Cutting `a/b` gives the pieces of `a` followed by those of `b`. */
  lemma {:induction false} SegmentsJoin(a: string, b: string)
    ensures Segments(a + "/" + b) == Segments(a) + Segments(b)
    decreases |a|
  {
    if a == [] {
      assert ([] + "/" + b)[1..] == b;
    } else {
      assert (a + "/" + b)[1..] == a[1..] + "/" + b;
      SegmentsJoin(a[1..], b);
    }
  }

  lemma {:induction false} NormalsAppend(x: seq<string>, y: seq<string>)
    ensures Normals(x + y) == Normals(x) + Normals(y)
    decreases |x|
  {
    if x != [] {
      assert (x + y)[0] == x[0];
      assert (x + y)[1..] == x[1..] + y;
      NormalsAppend(x[1..], y);
    } else {
      assert x + y == y;
    }
  }

  /** A piece without separators is cut into itself. */
  lemma SegmentsOfPiece(x: string)
    requires '/' !in x
    ensures Segments(x) == [x]
    decreases |x|
  {
    if x != [] {
      assert x[1..] == x[|x| - |x[1..]|..];
      SegmentsOfPiece(x[1..]);
      assert [x[0]] + x[1..] == x;
    }
  }

  /** Cutting `a/x/b`, for a piece `x`, gives the pieces of `a`, then `x`, then those of `b`. */
  lemma SegmentsAround(a: string, x: string, b: string)
    requires '/' !in x
    ensures Segments(a + "/" + x + "/" + b) == Segments(a) + ([x] + Segments(b))
  {
    assert a + "/" + x + "/" + b == a + "/" + (x + "/" + b);
    SegmentsJoin(a, x + "/" + b);
    SegmentsJoin(x, b);
    SegmentsOfPiece(x);
  }

  /** An empty or `.` piece names no component wherever it stands. */
  lemma NormalsSkip(p: seq<string>, x: string, q: seq<string>)
    requires x == "" || x == "."
    ensures Normals(p + ([x] + q)) == Normals(p + q)
  {
    NormalsAppend(p, [x] + q);
    NormalsAppend(p, q);
    NormalsAppend([x], q);
    assert Normals([x]) == [];
  }

  /** Pieces appended after the first add their components at the end. */
  lemma PiecesAppend(rooted: bool, p: seq<string>, q: seq<string>)
    requires p != []
    ensures PiecesComponents(rooted, p + q) == PiecesComponents(rooted, p) + Normals(q)
  {
    assert (p + q)[0] == p[0];
    assert (p + q)[1..] == p[1..] + q;
    NormalsAppend(p[1..], q);
    NormalsAppend(p, q);
  }

  /** A file in a directory: the directory's components, then the file name. */
  lemma ComponentsOfFile(dir: string, name: string)
    requires dir != [] && dir[|dir| - 1] != '/' && IsFileName(name)
    ensures Components(Display(Path(dir, name))) == Components(dir) + [Normal(name)]
  {
    SegmentsJoin(dir, name);
    SegmentsOfPiece(name);
    assert (dir + "/" + name)[0] == dir[0];
    PiecesAppend(dir[0] == '/', Segments(dir), [name]);
    assert [name][1..] == [];
  }

  /** An empty or `.` piece between two separators names no component:
      `a//b` and `a/./b` have the components of `a/b`. */
  lemma DropEmptyOrCurrent(a: string, x: string, b: string)
    requires a != [] && (x == "" || x == ".")
    ensures Components(a + "/" + x + "/" + b) == Components(a + "/" + b)
  {
    var long := a + "/" + x + "/" + b;
    var short := a + "/" + b;
    SegmentsAround(a, x, b);
    SegmentsJoin(a, b);
    assert long[0] == a[0] && short[0] == a[0];
    PiecesSkip(a[0] == '/', Segments(a), x, Segments(b));
  }

  /** A name Rust reports as a path's final file name: not empty, not `.` or `..`, no separator. */
  predicate IsFileName(name: string) {
    name != "" && name != "." && name != ".." && '/' !in name
  }

  /** Position of the last '.' in `s`, if any. */
  function LastDot(s: string): (r: Option<nat>)
    ensures r.Some? ==> r.value < |s| && s[r.value] == '.'
    ensures r.Some? ==> forall j :: r.value < j < |s| ==> s[j] != '.'
    ensures r.None? ==> forall j :: 0 <= j < |s| ==> s[j] != '.'
    decreases |s|
  {
    if s == [] then None
    else if s[|s| - 1] == '.' then Some(|s| - 1)
    else LastDot(s[..|s| - 1])
  }

  /** Rust's split of a file name at its last dot into stem and extension:
      `..`, a name without a dot, and a name whose only dot leads it have no extension. */
  function SplitName(name: string): (string, Option<string>) {
    if name == ".." then (name, None)
    else match LastDot(name)
      case None => (name, None)
      case Some(k) => if k == 0 then (name, None) else (name[..k], Some(name[k + 1..]))
  }

  /** `Path::file_stem`. */
  function FileStem(p: Path): string {
    SplitName(p.name).0
  }

  /** `Path::extension`. */
  function Extension(p: Path): Option<string> {
    SplitName(p.name).1
  }

  /** `PathBuf::set_file_name`: the parent is kept and the name replaced. */
  function SetFileName(p: Path, name: string): Path {
    Path(p.dir, name)
  }

  /** `PathBuf::set_extension`: everything after the stem is dropped, then `.ext` is added unless `ext` is empty. */
  function SetExtension(p: Path, ext: string): Path {
    Path(p.dir, FileStem(p) + (if ext == "" then "" else "." + ext))
  }

  /** A name splits into its stem and extension with the dot between them; the
      stem of a non-empty name is non-empty and an extension holds no dot. */
  lemma SplitNameRecompose(name: string)
    ensures SplitName(name).1.None? ==> SplitName(name).0 == name
    ensures SplitName(name).1.Some? ==> name == SplitName(name).0 + "." + SplitName(name).1.value
    ensures SplitName(name).1.Some? ==> '.' !in SplitName(name).1.value
    ensures name != "" ==> SplitName(name).0 != ""
  {
    if name != ".." && LastDot(name).Some? && LastDot(name).value != 0 {
      var k := LastDot(name).value;
      assert name == name[..k] + "." + name[k + 1..];
      var ext := name[k + 1..];
      forall j | 0 <= j < |ext|
        ensures ext[j] != '.'
      {
        assert ext[j] == name[k + 1 + j];
      }
    }
  }

  /** Joining a non-empty stem and a dot-free, non-empty extension splits back into the two. */
  lemma {:induction false} SplitNameJoin(stem: string, ext: string)
    requires stem != "" && ext != "" && '.' !in ext
    ensures SplitName(stem + "." + ext) == (stem, Some(ext))
  {
    var s := stem + "." + ext;
    assert s[|stem|] == '.';
    assert forall j :: |stem| < j < |s| ==> s[j] == ext[j - |stem| - 1];
    var r := LastDot(s);
    if r.None? || r.value < |stem| {
      assert false;
    } else if r.value > |stem| {
      assert false;
    }
    assert r == Some(|stem|);
    assert s != ".." by {
      assert s[|s| - 1] == ext[|ext| - 1];
    }
    assert s[..|stem|] == stem;
    assert s[|stem| + 1..] == ext;
  }

  /** A name other than `..` is its own stem exactly when no dot follows its first character. */
  lemma WholeStem(name: string)
    requires name != ".."
    ensures SplitName(name).0 == name <==> forall j :: 0 < j < |name| ==> name[j] != '.'
    ensures SplitName(name).0 <= name
  {
    SplitNameRecompose(name);
  }

  /** Paths in one directory display alike only when their names are equal. */
  lemma DisplayInjective(dir: string, a: string, b: string)
    ensures Display(Path(dir, a)) == Display(Path(dir, b)) <==> a == b
  {
    var d := Display(Path(dir, a));
    var e := Display(Path(dir, b));
    var n := |d| - |a|;
    assert d[n..] == a;
    assert e[n..] == b;
  }

  /** `change_file_name` (src/helpers.rs:11-19): replace the file name, then
      restore the original extension when the original path had one. */
  function ChangeFileName(path: Path, name: string): (r: Path)
    ensures r.dir == path.dir
    ensures Extension(path).None? ==> r.name == name
    ensures Extension(path).Some? && Extension(path).value != "" && name != "" ==>
              Extension(r) == Extension(path) && FileStem(r) == SplitName(name).0
    ensures Extension(path) == Some("") ==> r.name == SplitName(name).0
  {
    var renamed := SetFileName(path, name);
    match Extension(path)
    case None => renamed
    case Some(ext) =>
      SplitNameRecompose(path.name);
      SplitNameRecompose(name);
      if ext != "" && name != "" then
        var stem := SplitName(name).0;
        SplitNameJoin(stem, ext);
        assert SetExtension(renamed, ext).name == stem + "." + ext;
        SetExtension(renamed, ext)
      else
        SetExtension(renamed, ext)
  }
}

=== FILE: progress.dfy ===
/** The progress extractor `progress` (src/helpers.rs:88-109): the frame
    source's diagnostic stream is cut into records ending in a carriage return,
    and each record holding `Frame: <current>/<total>` updates the bar. */
module Progress {
  import opened Wrappers
  import opened Text

  const Cr: char := '\r'

  const Marker: string := "Frame: "

  /** Length of the run of digits starting at `i`: the greedy `\d+`. */
  function DigitRun(s: string, i: nat): (n: nat)
    requires i <= |s|
    ensures i + n <= |s|
    ensures forall j :: i <= j < i + n ==> IsDigit(s[j])
    ensures i + n == |s| || !IsDigit(s[i + n])
    decreases |s| - i
  {
    if i < |s| && IsDigit(s[i]) then 1 + DigitRun(s, i + 1) else 0
  }

  /** A digit run is determined by where it starts. */
  lemma DigitRunUnique(s: string, i: nat, n: nat)
    requires i + n <= |s|
    requires forall j :: i <= j < i + n ==> IsDigit(s[j])
    requires i + n == |s| || !IsDigit(s[i + n])
    ensures DigitRun(s, i) == n
  {
  }

  /** The digits of `s[i..i + n]`, read as a number. */
  function RunValue(s: string, i: nat, n: nat): nat
    requires i + n <= |s|
    requires forall j :: i <= j < i + n ==> IsDigit(s[j])
  {
    var run := s[i..i + n];
    assert forall k :: 0 <= k < |run| ==> run[k] == s[i + k];
    DigitsValue(run)
  }

  /** The literal `Frame: ` occurs at position `i`. */
  predicate HasMarkerAt(s: string, i: nat) {
    i + |Marker| <= |s| && s[i..i + |Marker|] == Marker
  }

  /** The match of `Frame: (\d+)/(\d+)` starting at position `i`, with its two captures. */
  function MatchAt(s: string, i: nat): (r: Option<(nat, nat)>)
    requires i <= |s|
    ensures r.Some? ==> HasMarkerAt(s, i) && i + |Marker| + 3 <= |s|
  {
    if !HasMarkerAt(s, i) then None
    else
      var start := i + |Marker|;
      var n := DigitRun(s, start);
      if 0 < n && start + n < |s| && s[start + n] == '/' then
        var m := DigitRun(s, start + n + 1);
        if 0 < m then Some((RunValue(s, start, n), RunValue(s, start + n + 1, m))) else None
      else None
  }

  /** The leftmost position at or after `i` where a match starts; `|s| + 1` when there is none. */
  function FirstMatch(s: string, i: nat): (k: nat)
    requires i <= |s|
    ensures i <= k <= |s| + 1
    ensures forall j :: i <= j < k && j <= |s| ==> MatchAt(s, j).None?
    ensures k <= |s| ==> MatchAt(s, k).Some?
    decreases |s| - i
  {
    if MatchAt(s, i).Some? then i
    else if i == |s| then |s| + 1
    else FirstMatch(s, i + 1)
  }

  /** `frame_regex.captures(record)`: unanchored, the leftmost occurrence supplies
      `(current, total)`; `None` when the record does not match. */
  function MatchFrame(s: string): (r: Option<(nat, nat)>)
    ensures r.None? <==> forall j :: 0 <= j <= |s| ==> MatchAt(s, j).None?
    ensures r.Some? ==> exists k :: 0 <= k <= |s| && r == MatchAt(s, k) && forall j :: 0 <= j < k ==> MatchAt(s, j).None?
  {
    var k := FirstMatch(s, 0);
    if k <= |s| then MatchAt(s, k) else None
  }

  /** The marker a frame source prints for frame `current` of `total`. */
  function FrameMarker(current: nat, total: nat): string {
    Marker + NatToString(current) + "/" + NatToString(total)
  }

  /** A digit run that spells `d` has the value of `d`. */
  lemma RunValueOf(s: string, i: nat, d: string)
    requires i + |d| <= |s| && s[i..i + |d|] == d && AllDigits(d)
    ensures forall j :: i <= j < i + |d| ==> IsDigit(s[j])
    ensures RunValue(s, i, |d|) == DigitsValue(d)
  {
    forall j | i <= j < i + |d|
      ensures IsDigit(s[j])
    {
      assert s[j] == d[j - i];
    }
  }

  /** A printed marker at the start of a record matches there with its two numbers. */
  lemma MatchAtMarker(current: nat, total: nat, rest: string)
    requires rest == [] || !IsDigit(rest[0])
    ensures MatchAt(FrameMarker(current, total) + rest, 0) == Some((current, total))
  {
    var c := NatToString(current);
    var t := NatToString(total);
    var s := FrameMarker(current, total) + rest;
    assert s == Marker + c + "/" + t + rest;
    var start := |Marker|;
    assert s[0..|Marker|] == Marker;
    assert s[start..start + |c|] == c;
    RunValueOf(s, start, c);
    DigitRunUnique(s, start, |c|);
    assert s[start + |c|] == '/';
    var start2 := start + |c| + 1;
    assert s[start2..start2 + |t|] == t;
    RunValueOf(s, start2, t);
    if rest != [] {
      assert s[start2 + |t|] == rest[0];
    }
    DigitRunUnique(s, start2, |t|);
    ParseNatToString(current);
    ParseNatToString(total);
  }

  /** A printed marker is recognised with its two numbers, whatever follows it
      that is not a further digit. */
  lemma MatchFrameMarker(current: nat, total: nat, rest: string)
    requires rest == [] || !IsDigit(rest[0])
    ensures MatchFrame(FrameMarker(current, total) + rest) == Some((current, total))
  {
    MatchAtMarker(current, total, rest);
  }

  /** A record without the text `Frame: ` does not match. */
  lemma NoMarkerNoMatch(s: string)
    requires forall i :: 0 <= i <= |s| ==> !HasMarkerAt(s, i)
    ensures MatchFrame(s) == None
  {
  }

  /** Position of the first carriage return at or after `i`. */
  function FirstCr(s: string, i: nat): (r: nat)
    requires i <= |s|
    ensures i <= r <= |s|
    ensures forall j :: i <= j < r ==> s[j] != Cr
    ensures r < |s| ==> s[r] == Cr
    decreases |s| - i
  {
    if i == |s| || s[i] == Cr then i else FirstCr(s, i + 1)
  }

  /** `BufRead::read_until(b'\r')`: the next record, through its carriage
      return or to the end of the stream, and what remains. */
  function ReadUntil(s: string): (r: (string, string))
    ensures r.0 + r.1 == s
    ensures s != [] ==> r.0 != []
    ensures forall j :: 0 <= j < |r.0| - 1 ==> r.0[j] != Cr
    ensures r.1 != [] ==> r.0 != [] && r.0[|r.0| - 1] == Cr
  {
    var k := FirstCr(s, 0);
    if k == |s| then (s, []) else (s[..k + 1], s[k + 1..])
  }

  /** The stream cut into the records successive reads return, up to the end. */
  function SplitRecords(s: string): (rs: seq<string>)
    ensures forall k :: 0 <= k < |rs| ==> rs[k] != []
    ensures forall k :: 0 <= k < |rs| - 1 ==> rs[k][|rs[k]| - 1] == Cr
    ensures forall k, j :: 0 <= k < |rs| && 0 <= j < |rs[k]| - 1 ==> rs[k][j] != Cr
    decreases |s|
  {
    if s == [] then []
    else
      var (record, rest) := ReadUntil(s);
      [record] + SplitRecords(rest)
  }

  function Concat(rs: seq<string>): string
    decreases |rs|
  {
    if rs == [] then [] else rs[0] + Concat(rs[1..])
  }

  /** The records put back together are the stream. */
  lemma {:induction false} SplitRecordsConcat(s: string)
    ensures Concat(SplitRecords(s)) == s
    decreases |s|
  {
    if s != [] {
      var (record, rest) := ReadUntil(s);
      SplitRecordsConcat(rest);
      assert SplitRecords(s)[1..] == SplitRecords(rest);
    }
  }

  /** What the extractor tracks: whether a total was taken (`read_frames`), and
      the bar's length and position. */
  datatype ScanState = ScanState(readFrames: bool, length: nat, position: nat)

  /** One record: a match sets the position, and the length too when no total
      was taken yet; any other record changes nothing. */
  function Step(st: ScanState, record: string): (r: ScanState)
    ensures st.readFrames ==> r.readFrames && r.length == st.length
    ensures MatchFrame(record).None? ==> r == st
    ensures MatchFrame(record).Some? ==> r.readFrames && r.position == MatchFrame(record).value.0
    ensures MatchFrame(record).Some? && !st.readFrames ==> r.length == MatchFrame(record).value.1
  {
    match MatchFrame(record)
    case None => st
    case Some((current, total)) => ScanState(true, if st.readFrames then st.length else total, current)
  }

  /** The scan loop over a sequence of reads; an empty read ends it. */
  function Scan(st: ScanState, records: seq<string>): (r: ScanState)
    ensures st.readFrames ==> r.readFrames && r.length == st.length
    ensures !r.readFrames ==> r == st
    decreases |records|
  {
    if records == [] || records[0] == [] then st else Scan(Step(st, records[0]), records[1..])
  }

  /** The reads before the first empty one. */
  function Live(records: seq<string>): (r: seq<string>)
    ensures |r| <= |records| && r == records[..|r|]
    ensures forall k :: 0 <= k < |r| ==> r[k] != []
    ensures |r| < |records| ==> records[|r|] == []
    decreases |records|
  {
    if records == [] || records[0] == [] then [] else [records[0]] + Live(records[1..])
  }

  /** The captures of the matching records, in order. */
  function Matches(records: seq<string>): seq<(nat, nat)>
    decreases |records|
  {
    if records == [] then []
    else match MatchFrame(records[0])
      case None => Matches(records[1..])
      case Some(m) => [m] + Matches(records[1..])
  }

  /** The state after the matches `ms`, stated without the loop: the total of
      the first match when none was taken before, the current frame of the last. */
  function AfterMatches(st: ScanState, ms: seq<(nat, nat)>): ScanState {
    if ms == [] then st
    else ScanState(true, if st.readFrames then st.length else ms[0].1, ms[|ms| - 1].0)
  }

  /** The scan loop computes exactly `AfterMatches` of the matches before the first empty read. */
  lemma {:induction false} ScanMeaning(st: ScanState, records: seq<string>)
    ensures Scan(st, records) == AfterMatches(st, Matches(Live(records)))
    decreases |records|
  {
    if records != [] && records[0] != [] {
      var rest := records[1..];
      ScanMeaning(Step(st, records[0]), rest);
      assert Live(records) == [records[0]] + Live(rest);
      assert (Live(records))[1..] == Live(rest);
      var ms := Matches(Live(rest));
      match MatchFrame(records[0])
      case None =>
      case Some(m) =>
        assert Matches(Live(records)) == [m] + ms;
    }
  }

  /** No length is set before a match: without matches the state is unchanged. */
  lemma NoMatchLeavesState(st: ScanState, records: seq<string>)
    requires Matches(Live(records)) == []
    ensures Scan(st, records) == st
  {
    ScanMeaning(st, records);
  }

  /** The total comes from the first matching record only, and never changes
      once taken; the position comes from the last matching record. */
  lemma TotalFromFirstMatch(st: ScanState, records: seq<string>)
    requires Matches(Live(records)) != []
    ensures var ms := Matches(Live(records));
            && Scan(st, records).readFrames
            && Scan(st, records).length == (if st.readFrames then st.length else ms[0].1)
            && Scan(st, records).position == ms[|ms| - 1].0
  {
    ScanMeaning(st, records);
  }

  /** Reads after the first empty one are never looked at. */
  lemma {:induction false} ScanStopsAtEmptyRead(st: ScanState, records: seq<string>, k: nat)
    requires k < |records| && records[k] == []
    ensures Scan(st, records) == Scan(st, records[..k])
    decreases k
  {
    if records[0] != [] {
      assert records[..k][0] == records[0];
      assert records[..k][1..] == records[1..][..k - 1];
      ScanStopsAtEmptyRead(Step(st, records[0]), records[1..], k - 1);
    }
  }

  /** The extractor over a whole stream: read records until an empty read, and
      fold each into the state. */
  method ScanStream(stream: string, st0: ScanState) returns (st: ScanState)
    ensures st == Scan(st0, SplitRecords(stream))
    ensures st == AfterMatches(st0, Matches(SplitRecords(stream)))
  {
    st := st0;
    var rest := stream;
    while true
      invariant Scan(st, SplitRecords(rest)) == Scan(st0, SplitRecords(stream))
      decreases |rest|
    {
      var (record, remaining) := ReadUntil(rest);
      if record == [] {
        break;
      }
      st := Step(st, record);
      rest := remaining;
    }
    ScanMeaning(st0, SplitRecords(stream));
    LiveOfRecords(SplitRecords(stream));
  }

  /** A stream's records are all non-empty, so all of them are live. */
  lemma LiveOfRecords(records: seq<string>)
    requires forall k :: 0 <= k < |records| ==> records[k] != []
    ensures Live(records) == records
  {
  }
}

=== FILE: renderqueue.dfy ===
/** The render jobs and the queue that holds them (src/rendering.rs). */
module RenderQueue {
  import opened Wrappers
  import opened Paths
  import opened Config

  /** One render job. `scriptPath` is the script the (foreign) script generator wrote. */
  datatype Render = Render(
    videoPath: Path,
    videoFolder: string,
    scriptPath: Path,
    inputFilename: string,
    outputFilepath: Path,
    settings: Settings,
    stdout: bool)

  /** `Render::new` without its foreign side effects: the settings and the
      generated script's path are given. There is no render when the input has no
      file name or stem (`parent()?`, `file_stem()?`, `file_name()?`). The output
      file sits next to the input and is named `<stem>_blur.<container>`. */
  function NewRender(inputPath: Path, stdout: bool, settings: Settings, scriptPath: Path): (r: Option<Render>)
    ensures r.None? <==> !IsFileName(inputPath.name)
    ensures r.Some? ==> r.value.videoPath == inputPath && r.value.videoFolder == inputPath.dir
    ensures r.Some? ==> r.value.inputFilename == inputPath.name && r.value.outputFilepath.dir == inputPath.dir
    ensures r.Some? ==> r.value.settings == settings && r.value.scriptPath == scriptPath && r.value.stdout == stdout
    ensures r.Some? && settings.container != "" && '.' !in settings.container ==>
              FileStem(r.value.outputFilepath) == FileStem(inputPath) + "_blur" &&
              Extension(r.value.outputFilepath) == Some(settings.container)
  {
    if !IsFileName(inputPath.name) then None
    else
      var stem := FileStem(inputPath);
      BlurNameSplits(stem, settings.container);
      Some(Render(inputPath, inputPath.dir, scriptPath, inputPath.name,
                  Path(inputPath.dir, stem + "_blur." + settings.container), settings, stdout))
  }

  /** `<stem>_blur.<container>` splits at the dot before a non-empty, dot-free container. */
  lemma BlurNameSplits(stem: string, container: string)
    ensures container != "" && '.' !in container ==>
              SplitName(stem + "_blur." + container) == (stem + "_blur", Some(container))
  {
    if container != "" && '.' !in container {
      SplitNameJoin(stem + "_blur", container);
      assert stem + "_blur." + container == stem + "_blur" + "." + container;
    }
  }

  /** `PartialEq for Render`: two renders are the same job when their video paths
      are equal as `PathBuf`s, that is, have the same components. */
  predicate SameRender(a: Render, b: Render) {
    Components(Display(a.videoPath)) == Components(Display(b.videoPath))
  }

  /** Render equality is an equivalence that ignores every field but the video path. */
  lemma SameRenderIsEquivalence(a: Render, b: Render, c: Render)
    ensures SameRender(a, a)
    ensures SameRender(a, b) ==> SameRender(b, a)
    ensures SameRender(a, b) && SameRender(b, c) ==> SameRender(a, c)
  {
  }

  /** Two renders of one input are the same job whatever their settings, script or output mode. */
  lemma RendersOfOneInputAreEqual(input: Path, o1: bool, s1: Settings, p1: Path, o2: bool, s2: Settings, p2: Path)
    ensures NewRender(input, o1, s1, p1).Some? <==> NewRender(input, o2, s2, p2).Some?
    ensures NewRender(input, o1, s1, p1).Some? ==>
              SameRender(NewRender(input, o1, s1, p1).value, NewRender(input, o2, s2, p2).value)
  {
  }

  /** Repeated separators and an inner `.` do not tell renders apart:
      `a//b/clip.mp4` and `a/./b/clip.mp4` are both `a/b/clip.mp4`. */
  lemma SameRenderNormalisedPaths(r1: Render, r2: Render, r3: Render)
    requires r1.videoPath == Path("a//b", "clip.mp4") && r2.videoPath == Path("a/./b", "clip.mp4")
    requires r3.videoPath == Path("a/b", "clip.mp4")
    ensures SameRender(r1, r3) && SameRender(r2, r3)
  {
    assert Display(r1.videoPath) == "a" + "/" + "" + "/" + "b/clip.mp4";
    assert Display(r2.videoPath) == "a" + "/" + "." + "/" + "b/clip.mp4";
    assert Display(r3.videoPath) == "a" + "/" + "b/clip.mp4";
    DropEmptyOrCurrent("a", "", "b/clip.mp4");
    DropEmptyOrCurrent("a", ".", "b/clip.mp4");
  }

  /** Different file names in one folder are different renders. */
  lemma DifferentNamesDifferentRenders(r1: Render, r2: Render)
    requires r1.videoPath.dir == r2.videoPath.dir
    requires r1.videoPath.dir != [] && r1.videoPath.dir[|r1.videoPath.dir| - 1] != '/'
    requires IsFileName(r1.videoPath.name) && IsFileName(r2.videoPath.name)
    requires r1.videoPath.name != r2.videoPath.name
    ensures !SameRender(r1, r2)
  {
    var dir := r1.videoPath.dir;
    ComponentsOfFile(dir, r1.videoPath.name);
    ComponentsOfFile(dir, r2.videoPath.name);
    var c := Components(dir);
    assert (c + [Normal(r1.videoPath.name)])[|c|] != (c + [Normal(r2.videoPath.name)])[|c|];
  }

  /** `Rendering`: the pending renders in insertion order and whether any were queued. */
  datatype Rendering = Rendering(queue: seq<Render>, rendersQueued: bool)

  /** The state the queue is in before anything is queued. */
  const EmptyQueue := Rendering([], false)

  /** The flag tells whether the queue holds anything. */
  predicate Consistent(q: Rendering) {
    q.rendersQueued <==> q.queue != []
  }

  /** `Rendering::queue_render` (src/rendering.rs:80-83). */
  function QueueRender(q: Rendering, render: Render): (r: Rendering)
    ensures |r.queue| == |q.queue| + 1 && r.queue[..|q.queue|] == q.queue && r.queue[|q.queue|] == render
    ensures r.rendersQueued
    ensures Consistent(r)
  {
    Rendering(q.queue + [render], true)
  }

  /** Queues every render of `rs`, in order. */
  function QueueAll(q: Rendering, rs: seq<Render>): (r: Rendering)
    ensures r.queue == q.queue + rs
    ensures rs != [] ==> r.rendersQueued
    ensures rs == [] ==> r == q
    decreases |rs|
  {
    if rs == [] then q else QueueAll(QueueRender(q, rs[0]), rs[1..])
  }

  /** One pass of `render_videos` (src/rendering.rs:90-117): when renders were
      queued, they are processed in queue order and the queue is then cleared
      and the flag reset; otherwise nothing happens. */
  function RenderPass(q: Rendering): (r: (seq<Render>, Rendering))
    ensures q.rendersQueued ==> r.0 == q.queue && r.1 == EmptyQueue
    ensures !q.rendersQueued ==> r.0 == [] && r.1 == q
    ensures Consistent(r.1) <==> Consistent(q) || q.rendersQueued
  {
    if q.rendersQueued then (q.queue, EmptyQueue) else ([], q)
  }

  /** Queuing renders on an empty queue and running a pass processes exactly
      those renders, in the order they were queued, and leaves the queue empty. */
  lemma {:induction false} QueueThenPass(rs: seq<Render>)
    ensures RenderPass(QueueAll(EmptyQueue, rs)).0 == rs
    ensures RenderPass(QueueAll(EmptyQueue, rs)).1 == EmptyQueue
  {
    assert QueueAll(EmptyQueue, rs).queue == [] + rs;
  }
}

=== FILE: text.dfy ===
/** Character-level helpers: ASCII digits and lower-casing, and the decimal
    rendering and parsing of unsigned integers. */
module Text {

  predicate IsDigit(c: char) {
    '0' <= c <= '9'
  }

  predicate AllDigits(s: string) {
    forall i :: 0 <= i < |s| ==> IsDigit(s[i])
  }

  function DigitChar(d: nat): char
    requires d < 10
  {
    ('0' as int + d) as char
  }

  function DigitValue(c: char): nat
    requires IsDigit(c)
  {
    c as int - '0' as int
  }

  /** Decimal text of `n` without leading zeros, as `to_string` renders an unsigned integer. */
  function NatToString(n: nat): (s: string)
    ensures |s| > 0 && AllDigits(s)
    ensures s[0] == '0' <==> n == 0
    decreases n
  {
    if n < 10 then [DigitChar(n)] else NatToString(n / 10) + [DigitChar(n % 10)]
  }

  /** The value of a run of decimal digits, as `str::parse` reads it (leading zeros allowed). */
  function DigitsValue(s: string): nat
    requires AllDigits(s)
    decreases |s|
  {
    if s == [] then 0 else 10 * DigitsValue(s[..|s| - 1]) + DigitValue(s[|s| - 1])
  }

  /** Parsing the decimal rendering of a number gives the number back. */
  lemma {:induction false} ParseNatToString(n: nat)
    ensures DigitsValue(NatToString(n)) == n
    decreases n
  {
    if n >= 10 {
      var s := NatToString(n);
      assert s[..|s| - 1] == NatToString(n / 10);
      ParseNatToString(n / 10);
    }
  }

  /** ASCII lower-casing of one character; every other character is kept. */
  function LowerChar(c: char): char {
    if 'A' <= c <= 'Z' then (c as int + 32) as char else c
  }

  /** `str::to_lowercase`, restricted to ASCII letters. */
  function ToLower(s: string): (r: string)
    ensures |r| == |s|
    ensures forall i :: 0 <= i < |s| ==> r[i] == LowerChar(s[i])
  {
    seq(|s|, i requires 0 <= i < |s| => LowerChar(s[i]))
  }

  /** The two strings differ at most in the letter case of their characters. */
  predicate SameIgnoringCase(a: string, b: string) {
    |a| == |b| && forall i :: 0 <= i < |a| ==> LowerChar(a[i]) == LowerChar(b[i])
  }

  /** Comparing lower-cased strings is exactly comparing them ignoring case. */
  lemma LowerEqualIffSameIgnoringCase(a: string, b: string)
    ensures ToLower(a) == ToLower(b) <==> SameIgnoringCase(a, b)
  {
    if SameIgnoringCase(a, b) {
      assert forall i :: 0 <= i < |a| ==> ToLower(a)[i] == ToLower(b)[i];
    }
    if ToLower(a) == ToLower(b) {
      assert forall i :: 0 <= i < |a| ==> LowerChar(a[i]) == ToLower(a)[i] == ToLower(b)[i] == LowerChar(b[i]);
    }
  }

  /** A lower-case literal is matched by `to_lowercase` exactly when the input spells it in any case. */
  lemma LowerMatchesLiteral(v: string, lit: string)
    requires ToLower(lit) == lit
    ensures ToLower(v) == lit <==> SameIgnoringCase(v, lit)
  {
    LowerEqualIffSameIgnoringCase(v, lit);
  }
}

=== FILE: wrappers.dfy ===
/** Failure-carrying values shared by the other modules. */
module Wrappers {

  /** A value that may be absent, as Rust's `Option`. */
  datatype Option<+T> = None | Some(value: T)

  /** A value or an error, as Rust's `Result`. */
  datatype Result<+T, +E> = Ok(value: T) | Err(error: E)

  /** The kinds of `std::io::Error` the model tells apart. */
  datatype ErrorKind = NotFound | PermissionDenied | OtherError
}
